=== FILE: README.md ===
# Veridian diagnostics and configuration, modelled in Dafny

Veridian is a SystemVerilog language server. This project models two parts of it.

**Diagnostics.** The server runs up to two external checkers over the open
buffer and turns what they print into Language Server Protocol diagnostics:

- **Verilator.** It runs in `--lint-only` mode in the file's directory. Its
  `%Error…`/`%Warning…` lines are matched, and lines about other files are
  skipped.
- **Verible.** `verible-verilog-lint` runs in the project directory. Its
  output is all-or-nothing: every line of it must parse.

The two lists are joined (Verilator's first) into one publish notification.
Directory walking skips hidden entries.

Two facts about the output handling shape the model:

- Only the checkers' error stream is read. Standard output is ignored.
- A Verilator run fails closed when a matched line about the checked file has
  a line or column number that does not parse as a u32 (too large, for
  instance), or is a warning without a code. Lines that do not match are
  skipped.

**Configuration.** The server searches for `veridian.yaml` or `veridian.yml`
in the workspace root and each of its ancestors, nearest first. The file's
settings are filled in from the defaults. An unset project path becomes the
directory holding the file. At start-up, each checker whose executable cannot
be found is disabled.

The modules follow the program:

| module | file | what it models |
|---|---|---|
| `Verilator` | `verilator.dfy` | the Verilator half of `src/diagnostics.rs`: the severity tag, the line pattern, line classification, the command, the run |
| `Verible` | `verible.dfy` | the Verible half of `src/diagnostics.rs` |
| `Diagnostics` | `diagnostics.dfy` | `get_diagnostics` and `is_hidden` |
| `Config` | `config.dfy` | the configuration types and defaults, `read_config`, and the masking step of `initialize` in `src/server.rs` |

Supporting modules model the library behaviour the code relies on:

- `Text`: `str::lines`, `split_whitespace` and `starts_with`.
- `Numbers`: `u32` parsing, the decimal rendering of a `u32`, and release-mode wrapping subtraction.
- `Paths`: `Path::parent`, `join` and `ancestors`.
- `Lsp` and `Process`: the protocol records and what a subprocess run yields.
- `Wrappers`: `Option`, `Result`, `Seqs.Map` and `Seqs.AllValues`.

The outside world enters only as function parameters:

- `run`: a checker run, given the command and the buffer text, gives an `Outcome`.
- `present`: `Path::exists`.
- `read`: reading a file.
- `parse`: the YAML deserialiser.
- `found`: the `which` lookup.
- `toFilePath`: `Url::to_file_path`.

Each regular expression is modelled as a hand-written matcher.
Each matcher comes with two lemmas:

- a round-trip lemma: a rendered line is matched back to its captures;
- a soundness lemma: a match is the rendering of its captures.

## Model

| member | source | states |
|---|---|---|
| `Verilator.SeverityOf` | src/diagnostics.rs:76-83 | the tag is always mapped; it is Error exactly for "Error", Warning exactly for tags starting with "Warning", and Information for every other tag |
| `Verilator.Column` | src/diagnostics.rs:177 | the optional `(?P<col>\d+):` group: a captured column is a non-empty run of digits, and the text is the column, a colon and the rest, or just the rest |
| `Verilator.DropSpace` | src/diagnostics.rs:177 | the optional space before the message: the text is the message, or one space and the message |
| `Verilator.MatchLocation` | src/diagnostics.rs:177 | the path, line and column part: a match keeps the severity and code it is given, a non-empty colon-free path, a non-empty digit line and an optional non-empty digit column |
| `Verilator.MatchCode` | src/diagnostics.rs:177 | the optional code and the location: a captured code is non-empty upper-case letters, digits and underscores, and the location fields are as for `MatchLocation` |
| `Verilator.MatchAt` | src/diagnostics.rs:176-180 | a match anchored at a '%' yields captures that satisfy the pattern's character classes: a non-empty colon-free path, a non-empty digit line, an optional non-empty digit column, and an optional upper-case/digit/underscore warning code |
| `Verilator.FindStart` | src/diagnostics.rs:195-198 | the search finds the leftmost position where the pattern matches; no earlier position matches, and none matches when it reports nothing |
| `Verilator.Find` | src/diagnostics.rs:195-198 | the captures are found exactly when a match position exists, and they are those of the leftmost match |
| `Verilator.MatchLocationRender` | src/diagnostics.rs:177 | the path, line, optional column and message part of the pattern reads back the fields it was rendered from |
| `Verilator.ColumnRender` | src/diagnostics.rs:177 | the optional column group reads back the column it was rendered with, leaving the spaced message |
| `Verilator.MatchCodePlain` | src/diagnostics.rs:177 | with no warning code, the code part of the pattern reduces to matching the location after ": " |
| `Verilator.MatchCodeTagged` | src/diagnostics.rs:177 | a "-CODE: " prefix with a valid code is captured as the warning type, and the location is matched after it |
| `Verilator.MatchCodeRender` | src/diagnostics.rs:177 | the code-and-location part of the pattern reads back any well-formed captures |
| `Verilator.MatchAtError` | src/diagnostics.rs:177 | "%Error" selects the Error alternative of the severity group |
| `Verilator.MatchAtWarning` | src/diagnostics.rs:177 | "%Warning" selects the Warning alternative of the severity group |
| `Verilator.MatchRender` | src/diagnostics.rs:176-180 | round trip: an anchored match of a rendered finding gives back exactly its captures |
| `Verilator.FindRender` | src/diagnostics.rs:195-198 | round trip through the unanchored search: a rendered finding is found and its captures are recovered |
| `Verilator.MatchLocationSound` | src/diagnostics.rs:177 | a location match is the rendering of its own captures, with or without the optional space before the message |
| `Verilator.MatchCodeSound` | src/diagnostics.rs:177 | a code-and-location match is the rendering of its own captures |
| `Verilator.MatchAtSound` | src/diagnostics.rs:176-180 | soundness: whatever the anchored matcher accepts is the rendering of the captures it returns |
| `Verilator.MessageOf` | src/diagnostics.rs:209-217 | an Error's message is the captured message; a Warning's message is "CODE: message" and exists only when a code was captured |
| `Verilator.ClassifyLine` | src/diagnostics.rs:192-226 | lines not starting with '%', unmatched lines and lines about another file are skipped. A finding about the checked file aborts exactly when its line or column does not parse as a u32 or it is a Warning without a code. A kept diagnostic has an empty range, source "verilator" and severity Error or Warning |
| `Verilator.OversizedLineAborts` | src/diagnostics.rs:206 | a finding in the checked file whose line number exceeds the u32 range aborts the run |
| `Verilator.ClassifyRendered` | src/diagnostics.rs:202-226 | a finding for the checked file becomes one diagnostic at (line-1, col-1), with the column defaulting to 1. An Error keeps the message, a Warning gets "CODE: message", and a Warning without a code aborts the run |
| `Verilator.ClassifyFound` | src/diagnostics.rs:205-226 | a found finding in the checked file whose numbers parse becomes a zero-width diagnostic at (line-1, col-1) with the severity of its tag, or aborts when it has no message |
| `Verilator.RenderedNumbers` | src/diagnostics.rs:206-207 | a rendered finding starts with '%', is found again, and its line and column (1 by default) parse back to the numbers rendered |
| `Verilator.OtherFileSkipped` | src/diagnostics.rs:200-204 | a finding whose path differs from the checked file is skipped |
| `Verilator.Gather` | src/diagnostics.rs:194-228 | the verdicts give no list exactly when one aborts; otherwise they give the kept diagnostics in order |
| `Verilator.Classify` | src/diagnostics.rs:190-194 | each line is classified on its own, in order |
| `Verilator.KeptFromKeep` | src/diagnostics.rs:194-227 | every collected diagnostic comes from some line's verdict, and there are no more diagnostics than lines |
| `Verilator.Collect` | src/diagnostics.rs:188-228 | the output yields no list exactly when some line aborts; otherwise at most one diagnostic per line, each with source "verilator" |
| `Verilator.CollectAppend` | src/diagnostics.rs:194-227 | order is kept: collecting two runs of lines gives the first's diagnostics, then the second's, and fails when either fails |
| `Verilator.SkippedLineIsIgnored` | src/diagnostics.rs:192-204 | inserting a skipped line anywhere does not change the result |
| `Verilator.SplitArgs` | src/diagnostics.rs:155-158 | the configured arguments are split into whitespace-free, non-empty words that keep every non-whitespace character in order |
| `Verilator.SplitArgsOfWords` | src/diagnostics.rs:155-158 | arguments that are already single words pass through unchanged |
| `Verilator.SplitArgsAppend` | src/diagnostics.rs:155-158 | each configured argument is split on its own: the split of two lists is the first's split, then the second's |
| `Verilator.SplitArgsSeparates` | src/diagnostics.rs:155-158 | one argument holding two words separated by any whitespace character becomes those two arguments |
| `Verilator.SyntaxCommand` | src/diagnostics.rs:155-171 | Verilator runs with the split arguments followed by the file path, in the directory that contains the file |
| `Verilator.Syntax` | src/diagnostics.rs:187-231 | a failed spawn, a successful exit or non-UTF-8 output gives nothing; a failing exit collects the lines of the error stream for the file's path |
| `Verible.LastWhitespace` | src/diagnostics.rs:106 | finds the last whitespace character of the message part; only non-whitespace follows it |
| `Verible.EndColumn` | src/diagnostics.rs:106 | the optional "-endcol" group captures digits only |
| `Verible.Columns` | src/diagnostics.rs:106 | the start column and the optional end column capture digits only |
| `Verible.Fields` | src/diagnostics.rs:106 | the fields after the path's colon yield digit-only line and column captures |
| `Verible.LastSplit` | src/diagnostics.rs:106 | the greedy `.+` prefix: the split point is the last one from which the fields match, and there is none when no point matches |
| `Verible.Match` | src/diagnostics.rs:106 | a line matches exactly when some non-empty prefix can be followed by the fields, and the captures come from the last such split |
| `Verible.EndColumnOfText` | src/diagnostics.rs:106 | round trip of the optional end column group |
| `Verible.EndColumnSound` | src/diagnostics.rs:106 | an accepted end column group is the rendering of what it captured |
| `Verible.ColumnsOfText` | src/diagnostics.rs:106 | round trip of the start and end column groups |
| `Verible.ColumnsSound` | src/diagnostics.rs:106 | accepted column groups are the rendering of what they captured |
| `Verible.Message` | src/diagnostics.rs:106 | the `\s(?P<message>.*)\s.*$` part: there is no message exactly when the text does not start with whitespace or has no later whitespace; otherwise the message is what lies between the first character and the last whitespace, which only non-whitespace follows |
| `Verible.LastWhitespaceOf` | src/diagnostics.rs:106 | in a message, whitespace, then a whitespace-free tail, the last whitespace is the one before the tail |
| `Verible.MessageOfText` | src/diagnostics.rs:106 | the message is everything between the whitespace after the colon and the last whitespace |
| `Verible.MessageSound` | src/diagnostics.rs:106 | an accepted message part is whitespace, the message, whitespace and a whitespace-free tail |
| `Verible.FieldsRender` | src/diagnostics.rs:106 | round trip of the fields after the path for any well-formed captures |
| `Verible.FieldsSound` | src/diagnostics.rs:106 | accepted fields are the rendering of their captures with some whitespace and tail |
| `Verible.FieldsColons` | src/diagnostics.rs:106 | matched fields contain at least three colons |
| `Verible.FieldsTextColons` | src/diagnostics.rs:106 | rendered fields with a colon-free message and tail contain exactly three colons |
| `Verible.NoLaterFields` | src/diagnostics.rs:106 | fields with exactly three colons cannot also match from any later point |
| `Verible.MatchAfter` | src/diagnostics.rs:106 | when the fields match and hold exactly three colons, the greedy prefix is exactly the path, whatever colons it contains |
| `Verible.MatchRender` | src/diagnostics.rs:106 | round trip of a whole line: path, fields, message and tail are matched back to the captures |
| `Verible.LineDiagnostic` | src/diagnostics.rs:119-137 | an unmatched line gives nothing. A matched line gives a diagnostic exactly when its line, start column and any end column parse as u32. It is then an Error from "verible" with the captured message, ranging from (line-1, startcol-1) to (line-1, endcol-1), where the end column defaults to the start column |
| `Verible.LineOfDecimals` | src/diagnostics.rs:119-137 | any matched line with decimal numbers, whatever colons its message holds (such as Verible's `[Style: …]`), gives the Error diagnostic from (line-1, startcol-1) to (line-1, endcol-1) with its message |
| `Verible.LineRendered` | src/diagnostics.rs:119-137 | a finding rendered with a colon-free message and trailing word gives the range (line-1, startcol-1) to (line-1, endcol-1); the end column defaults to the start column. `Verible.LineOfDecimals` covers messages with colons |
| `Verible.EmptyLineNumberFails` | src/diagnostics.rs:120 | an empty line number matches the pattern but fails to parse, so the line gives nothing |
| `Verible.EmptyStartColumnFails` | src/diagnostics.rs:121 | an empty start column matches the pattern but fails to parse, so the line gives nothing |
| `Verible.EmptyEndColumnFails` | src/diagnostics.rs:122-126 | an empty end column after a dash matches the pattern but fails to parse, so the line gives nothing |
| `Verible.OversizedLineFails` | src/diagnostics.rs:120 | a line number beyond the u32 range matches the pattern but fails to parse, so the line gives nothing |
| `Seqs.AllValues` | src/diagnostics.rs:118-139 | a loop that returns early with `?`: no list exactly when some value is missing, otherwise every value in order |
| `Verible.Collect` | src/diagnostics.rs:115-139 | all or nothing: the result is missing exactly when some line gives no diagnostic; otherwise the k-th diagnostic is the k-th line's |
| `Verible.UnmatchedLineDiscardsAll` | src/diagnostics.rs:118-119 | one line that does not match discards the whole run's diagnostics |
| `Verible.EmptyLineUnmatched` | src/diagnostics.rs:106 | an empty line does not match, so it too discards the run |
| `Verible.LintCommand` | src/diagnostics.rs:93-99 | Verible runs with the configured arguments unchanged followed by the file path, in the project directory |
| `Verible.Lint` | src/diagnostics.rs:114-142 | a failed spawn, a successful exit or non-UTF-8 output gives nothing; a failing exit collects the lines of the error stream |
| `Diagnostics.VerilatorPart` | src/diagnostics.rs:19-34 | Verilator's share: only "verilator" diagnostics, none when it is disabled or the URI is not a file path |
| `Diagnostics.VeriblePart` | src/diagnostics.rs:36-52 | Verible's share: only "verible" diagnostics, none when it is disabled or the URI is not a file path |
| `Diagnostics.GetDiagnostics` | src/diagnostics.rs:11-64 | the notification is for the given URI without a version. It is empty when the URI is not a path or both checkers are off. Every diagnostic comes from one of the two checkers, with Verilator's before Verible's |
| `Diagnostics.FromSource` | src/diagnostics.rs:19-52 | filtering by source label keeps only diagnostics with that label |
| `Diagnostics.FromSourceAppend` | src/diagnostics.rs:19-52 | filtering distributes over the concatenation of the two checkers' lists |
| `Diagnostics.FromSourceAll` | src/diagnostics.rs:19-52 | filtering a list that carries only one label by that label keeps it whole |
| `Diagnostics.FromSourceNone` | src/diagnostics.rs:19-52 | filtering a list by a label it never carries leaves nothing |
| `Diagnostics.SeparateBySource` | src/diagnostics.rs:18-57 | the notification's "verilator" diagnostics are exactly Verilator's share and its "verible" ones exactly Verible's |
| `Diagnostics.SuccessContributesNothing` | src/diagnostics.rs:19-52 | checkers that exit successfully contribute nothing, whatever they print |
| `Diagnostics.VerilatorFindings` | src/diagnostics.rs:19-34 | a failing Verilator run with readable output contributes exactly what its lines collect to, or nothing when a line aborts |
| `Diagnostics.VeribleFindings` | src/diagnostics.rs:36-52 | a failing Verible run with readable output contributes every line's diagnostic, or nothing when one line gives none |
| `Diagnostics.DefaultVerilatorCommand` | src/server.rs:118-129 | under the defaults Verilator runs as `verilator --lint-only -Wall <file>` in the file's directory |
| `Diagnostics.DefaultArgsAreWords` | src/server.rs:122-125 | the default Verilator arguments are single words, so splitting keeps them |
| `Diagnostics.CombinedDefaultArgs` | src/diagnostics.rs:155-158 | the two default flags written as one argument, `"--lint-only -Wall"`, are passed as the two default arguments |
| `Diagnostics.DefaultVeribleCommand` | src/server.rs:100-108 | under the defaults Verible runs as `verible-verilog-lint <file>` in the project directory |
| `Diagnostics.IsHidden` | src/diagnostics.rs:67-73 | an entry is hidden exactly when its name is valid UTF-8 and starts with '.' |
| `Config.ToolFrom` | src/server.rs:92-129 | each checker setting the file gives is used; each one it omits takes the checker's default |
| `Config.ConfigFrom` | src/server.rs:80-90 | the file's settings are completed from the defaults: log level Info, empty project path |
| `Config.EmptyFileIsDefault` | src/server.rs:80-129 | a file that sets nothing yields exactly the default configuration |
| `Config.ConfigIn` | src/server.rs:139-150 | a directory holds a configuration when it has either file; `veridian.yaml` wins over `veridian.yml` |
| `Config.FindConfig` | src/server.rs:138-151 | the search from the workspace root finds nothing exactly when neither file name is present in the root or in any directory above it |
| `Config.FirstConfig` | src/server.rs:138-151 | the search finds nothing exactly when no directory holds a file; otherwise the result is the first holder's file |
| `Config.RootConfigWins` | src/server.rs:138-151 | a configuration in the workspace root itself is always the one used |
| `Config.FoundConfigIsNearest` | src/server.rs:138-151 | the file found belongs to the nearest ancestor holding one; no nearer directory holds either name |
| `Config.Locate` | src/server.rs:131-153 | no root URI, or one that is not a file path, is a workdir error. No file in any ancestor is a missing-config error. Otherwise the nearest file is used |
| `Config.Load` | src/server.rs:155-168 | an unreadable file and malformed YAML are errors, and a file that reads and parses always loads. The settings then come from the file with defaults, and an unset project path becomes the directory holding the file |
| `Config.ReadConfig` | src/server.rs:131-169 | reading the configuration is locating the file, then loading it; a location error is passed on unchanged |
| `Config.UnsetProjectPathIsConfigDir` | src/server.rs:161-164 | when the file leaves the project path unset, the project is the directory in which the file was found |
| `Config.Mask` | src/server.rs:201-202 | a checker stays enabled exactly when it was enabled and its executable is found; its path and arguments are untouched |
| `Config.Initialize` | src/server.rs:176-202 | start-up uses the loaded configuration, or keeps the current one when loading fails, then disables each checker whose executable is missing; nothing else changes |
| `Config.InitializeNeverEnables` | src/server.rs:201-202 | start-up never enables a checker that the configuration disables |
| `Config.InitializeIdempotent` | src/server.rs:201-202 | masking a second time with the same lookup changes nothing |
| `Config.FailedLoadKeepsDefaults` | src/server.rs:192-202 | when no configuration loads, the server runs on the defaults with missing checkers disabled |
| `Numbers.ParseU32` | src/diagnostics.rs:120-121 | `str::parse::<u32>` succeeds exactly for an optional '+' followed by one or more ASCII digits whose value fits in 32 bits, and yields that value |
| `Numbers.ParseDecimal` | src/diagnostics.rs:206-207 | parsing a number's decimal text gives the number back |
| `Numbers.ParseOversized` | src/diagnostics.rs:206-207 | the decimal text of a number beyond the u32 range does not parse |
| `Numbers.WrappingDec` | src/diagnostics.rs:127-128 | subtracting one wraps modulo 2^32: the result plus one is the input modulo 2^32 |
| `Text.Lines` | src/diagnostics.rs:118 | no line `str::lines` yields contains '\n', and empty text is exactly the text with no lines |
| `Text.LinesOfUnlines` | src/diagnostics.rs:190-191 | lines joined with '\n' are split back into the same lines, provided none contains '\n' or ends with '\r' |
| `Text.LinesLf` | src/diagnostics.rs:118 | a line ended by '\n' comes out whole and splitting continues after it, provided the line does not end in '\r' |
| `Text.LinesCrLf` | src/diagnostics.rs:118 | a line ended by "\r\n" loses both characters, whatever the line itself ends in, and splitting continues after it |
| `Text.LinesLast` | src/diagnostics.rs:118 | a non-empty final line without a line feed is kept as it is, a trailing '\r' included |
| `Text.LinesEnded` | src/diagnostics.rs:118 | a line and its ending, "\n" or "\r\n", come off the front of the text as that line alone |
| `Text.LinesOfTerminated` | src/diagnostics.rs:118 | for any mix of "\n" and "\r\n" endings, chosen line by line, and an optional unterminated last line, splitting gives back exactly the lines, with the last line only when it is non-empty. Lines hold no '\n', and a line ended by a bare "\n" must not end in '\r', since that '\r' would be read as part of the ending |
| `Text.SplitWhitespace` | src/diagnostics.rs:157 | `split_whitespace` gives non-empty, whitespace-free words |
| `Text.SplitWhitespaceEmpty` | src/diagnostics.rs:157 | splitting gives no words exactly when the text is all whitespace |
| `Text.SplitWhitespaceSkipsSpace` | src/diagnostics.rs:157 | a leading whitespace character does not change the split |
| `Text.SplitAtWhitespace` | src/diagnostics.rs:157 | whitespace separates words: a word followed by any whitespace character is split off on its own, and the split goes on after the whitespace |
| `Text.SplitWhitespaceKeepsContent` | src/diagnostics.rs:157 | the words keep every non-whitespace character of the text, in order |
| `Text.SplitJoinWords` | src/diagnostics.rs:157 | words joined by single spaces are split back into the same words |
| `Paths.Parent` | src/diagnostics.rs:161 | `Path::parent`: none exactly for a path without components; otherwise the path without its last component, which the cwd of the Verilator run is |
| `Paths.ToStr` | src/diagnostics.rs:170 | `Path::to_str`: a bare root is "/", an empty relative path is "", and an absolute path's text starts with '/' |
| `Paths.ToStrJoin` | src/diagnostics.rs:202 | the text of a joined path is the directory's text, a '/' unless the directory has no components, and the name; this is the text compared with a finding's path |
| `Paths.Ancestors` | src/server.rs:138 | `Path::ancestors` lists the path itself and then every parent, nearest first, one per component plus the root |

## Left out

- The parsed-source registry and everything else in the server (completion, hover, formatting, file watching). Only diagnostics and configuration are modelled.
- Process plumbing. Starting the checker, writing the buffer to its stdin and waiting for it are one `run` parameter whose `Outcome` is `Failed` when any of these steps fails. Logging is omitted.
- The test-only branch of `get_diagnostics` (`cfg!(test)` with a `file:///test` URI) is not modelled. The model is of the non-test build.
- `Verilator.ClassifyRendered`, `Verible.LineDiagnostic`, `Verible.LineOfDecimals`, `Verible.LineRendered`: state positions with u32 wrap-around on `line - 1` and `col - 1`. This is the release build. A debug build panics when a checker reports line or column 0.
- `\d` is modelled as ASCII digits, but the `regex` crate's `\d` also matches other Unicode decimal digits, such as '٣', which `u32` parsing then rejects. The two differ on lines holding such digits.
  - Verilator: the program captures the column of `%Error: a.sv:1:٣: msg`, fails to parse it and drops the whole run. The model does not match the optional column, and keeps a diagnostic at (0, 0) with message "٣: msg".
  - Verible: on `p:1:2: a:٣:4: b c` the program's greedy prefix ends at `:٣:4:` and the run gives nothing. The model splits at `:1:2:` and reports the message "a:٣:4: b".
  - Lines whose numbers hold only ASCII digits are treated alike.
- `.` in both patterns is modelled as any character. Lines from `str::lines` never contain '\n', so the two agree.
- `Text.Lines` follows the current `str::lines`: a lone '\r' at the end of the text is kept. Older Rust releases stripped it.
- `Verible.MatchRender`: covers messages and tails without a colon. The greedy prefix makes the general case depend on where later colons fall, and `Verible.Match` and `Verible.LastSplit` state that case directly.
- Non-UTF-8 file paths are not modelled. `Path::to_str` is modelled as always succeeding, so the `?` on it never returns early.
- `Diagnostics.GetDiagnostics`, `Diagnostics.VerilatorPart`: require that an enabled Verilator is given a path with a parent directory. The program unwraps `parent()` and would panic otherwise.
- The log-level change in `initialize` (`parse_and_push_temp_spec`) and its error return are not modelled. A configuration that loads is taken as is.
- The "project path is not a directory" check only logs, so it is not modelled. `Config.Load` keeps such a path unchanged, as the program does.
- `which` is the `found` parameter. `Path::exists`, file reading and YAML deserialisation (with `serde(default)` modelled by `Config.ConfigFrom`) are parameters too.
- `Verilator.SeverityOf`: the Information branch is reachable only through the function itself. The pattern captures only "Error" or "Warning", so a collected diagnostic is never Information.

=== FILE: config.dfy ===
/**
 The project configuration: its defaults, how the configuration file is found
 above the workspace root and loaded, and which checkers stay enabled once the
 server starts. The file system, the YAML reader and the executable lookup are
 parameters.
 */
module Config {
  import opened Wrappers
  import opened Paths

  datatype LogLevel = Error | Warn | Info | Debug | Trace

  /** The settings of one checker: whether it runs, the executable, and its extra arguments. */
  datatype Tool = Tool(enabled: bool, path: string, args: seq<string>)

  datatype ProjectConfig = ProjectConfig(veribleLint: Tool, verilator: Tool, logLevel: LogLevel, projectPath: Path)

  const DefaultVeribleLint := Tool(true, "verible-verilog-lint", [])

  const DefaultVerilator := Tool(true, "verilator", ["--lint-only", "-Wall"])

  /** The configuration the server starts with, and the one every absent setting falls back to. */
  const DefaultConfig := ProjectConfig(DefaultVeribleLint, DefaultVerilator, Info, Path(false, []))

  // ---------------------------------------------------------------------------
  // Reading the file: every setting may be absent and then takes its default
  // ---------------------------------------------------------------------------

  /** The settings of one checker as the file gives them. */
  datatype ToolFields = ToolFields(enabled: Option<bool>, path: Option<string>, args: Option<seq<string>>)

  /** The settings as the file gives them; the YAML reader is a parameter that yields these. */
  datatype ConfigFields = ConfigFields(
    veribleLint: Option<ToolFields>,
    verilator: Option<ToolFields>,
    logLevel: Option<LogLevel>,
    projectPath: Option<Path>)

  const NoFields := ConfigFields(None, None, None, None)

  /** One checker's settings, each absent one taken from `d`. */
  function ToolFrom(f: Option<ToolFields>, d: Tool): (t: Tool)
    ensures f.None? ==> t == d
    ensures f.Some? ==> t.enabled == f.value.enabled.GetOr(d.enabled)
    ensures f.Some? ==> t.path == f.value.path.GetOr(d.path)
    ensures f.Some? ==> t.args == f.value.args.GetOr(d.args)
  {
    match f
    case None => d
    case Some(fs) => Tool(fs.enabled.GetOr(d.enabled), fs.path.GetOr(d.path), fs.args.GetOr(d.args))
  }

  /** The configuration a file denotes: the given settings, and the defaults for the rest. */
  function ConfigFrom(f: ConfigFields): (c: ProjectConfig)
    ensures c.veribleLint == ToolFrom(f.veribleLint, DefaultVeribleLint)
    ensures c.verilator == ToolFrom(f.verilator, DefaultVerilator)
    ensures f.logLevel.Some? ==> c.logLevel == f.logLevel.value
    ensures f.logLevel.None? ==> c.logLevel == Info
    ensures f.projectPath.Some? ==> c.projectPath == f.projectPath.value
    ensures f.projectPath.None? ==> c.projectPath.IsEmpty()
  {
    ProjectConfig(
      ToolFrom(f.veribleLint, DefaultVeribleLint),
      ToolFrom(f.verilator, DefaultVerilator),
      f.logLevel.GetOr(DefaultConfig.logLevel),
      f.projectPath.GetOr(DefaultConfig.projectPath))
  }

  /** A file that sets nothing denotes the defaults. */
  lemma EmptyFileIsDefault()
    ensures ConfigFrom(NoFields) == DefaultConfig
  {
  }

  // ---------------------------------------------------------------------------
  // Finding the file
  // ---------------------------------------------------------------------------

  const YamlName := "veridian.yaml"

  const YmlName := "veridian.yml"

  /** The configuration file in one directory: `veridian.yaml` when it is present, else `veridian.yml` when that does. */
  function ConfigIn(dir: Path, present: Path -> bool): (r: Option<Path>)
    ensures r.Some? <==> present(dir.Join(YamlName)) || present(dir.Join(YmlName))
    ensures present(dir.Join(YamlName)) ==> r == Some(dir.Join(YamlName))
    ensures !present(dir.Join(YamlName)) && present(dir.Join(YmlName)) ==> r == Some(dir.Join(YmlName))
  {
    if present(dir.Join(YamlName)) then Some(dir.Join(YamlName))
    else if present(dir.Join(YmlName)) then Some(dir.Join(YmlName))
    else None
  }

  /** The configuration file of the first directory of `dirs` that holds one. */
  function FirstConfig(dirs: seq<Path>, present: Path -> bool): (r: Option<Path>)
    ensures r.None? <==> forall i :: 0 <= i < |dirs| ==> ConfigIn(dirs[i], present).None?
    ensures r.Some? ==> exists i :: (0 <= i < |dirs| && r == ConfigIn(dirs[i], present)
      && forall j :: 0 <= j < i ==> ConfigIn(dirs[j], present).None?)
    decreases |dirs|
  {
    if dirs == [] then None
    else
      var here := ConfigIn(dirs[0], present);
      if here.Some? then here
      else
        var r := FirstConfig(dirs[1..], present);
        assert forall i :: 1 <= i < |dirs| ==> dirs[1..][i - 1] == dirs[i];
        assert r.Some? ==> exists i :: (0 <= i < |dirs| && r == ConfigIn(dirs[i], present)
          && forall j :: 0 <= j < i ==> ConfigIn(dirs[j], present).None?) by {
          if r.Some? {
            var i :| 0 <= i < |dirs[1..]| && r == ConfigIn(dirs[1..][i], present)
              && forall j :: 0 <= j < i ==> ConfigIn(dirs[1..][j], present).None?;
            assert r == ConfigIn(dirs[i + 1], present);
          }
        }
        r
  }

  /**
   The search upward from the workspace root, nearest directory first. It
   finds nothing exactly when neither name is present in the root or any
   directory above it (the paths made of the root's first `k` components).
   */
  function FindConfig(root: Path, present: Path -> bool): (r: Option<Path>)
    ensures r.None? <==>
      forall k :: 0 <= k <= |root.components| ==> ConfigIn(Path(root.absolute, root.components[..k]), present).None?
  {
    var dirs := Ancestors(root);
    var n := |root.components|;
    assert forall k :: 0 <= k <= n ==> dirs[n - k] == Path(root.absolute, root.components[..k]);
    assert forall i :: 0 <= i < |dirs| ==> dirs[i] == Path(root.absolute, root.components[..n - i]);
    FirstConfig(dirs, present)
  }

  /** A configuration file in the root itself is the one found. */
  lemma RootConfigWins(root: Path, present: Path -> bool)
    requires ConfigIn(root, present).Some?
    ensures FindConfig(root, present) == ConfigIn(root, present)
  {
  }

  /**
   The `i`-th ancestor of the root holds the file found, and no nearer
   ancestor holds either name.
   */
  predicate NearestHolder(root: Path, present: Path -> bool, i: nat)
    requires FindConfig(root, present).Some? && i < |Ancestors(root)|
  {
    var dirs := Ancestors(root);
    && FindConfig(root, present).value.Parent() == Some(dirs[i])
    && forall j :: 0 <= j < i ==> !present(dirs[j].Join(YamlName)) && !present(dirs[j].Join(YmlName))
  }

  /**
   The file found sits in one of the root's ancestors (the root itself
   first), and every nearer ancestor holds neither name.
   */
  lemma FoundConfigIsNearest(root: Path, present: Path -> bool)
    requires FindConfig(root, present).Some?
    ensures exists i :: 0 <= i < |Ancestors(root)| && NearestHolder(root, present, i)
  {
    var dirs := Ancestors(root);
    var r := FindConfig(root, present);
    var i :| 0 <= i < |dirs| && r == ConfigIn(dirs[i], present)
      && forall j :: 0 <= j < i ==> ConfigIn(dirs[j], present).None?;
    JoinParent(dirs[i], YamlName);
    JoinParent(dirs[i], YmlName);
    forall j | 0 <= j < i
      ensures !present(dirs[j].Join(YamlName)) && !present(dirs[j].Join(YmlName))
    {
      assert ConfigIn(dirs[j], present).None?;
    }
    assert r.value.Parent() == Some(dirs[i]);
    assert NearestHolder(root, present, i);
  }

  // ---------------------------------------------------------------------------
  // Loading
  // ---------------------------------------------------------------------------

  /** Why the configuration could not be loaded. */
  datatype ConfigError = NoWorkdir | NoConfigFile | Unreadable | Malformed

  /** The configuration file for a workspace root URI; `toFilePath` converts a URI. */
  function Locate(rootUri: Option<string>, toFilePath: string -> Option<Path>, present: Path -> bool): (r: Result<Path, ConfigError>)
    ensures rootUri.None? ==> r == Err(NoWorkdir)
    ensures rootUri.Some? && toFilePath(rootUri.value).None? ==> r == Err(NoWorkdir)
    ensures rootUri.Some? && toFilePath(rootUri.value).Some? ==>
      r == (match FindConfig(toFilePath(rootUri.value).value, present)
            case Some(p) => Ok(p)
            case None => Err(NoConfigFile))
  {
    match rootUri
    case None => Err(NoWorkdir)
    case Some(uri) =>
      match toFilePath(uri)
      case None => Err(NoWorkdir)
      case Some(root) =>
        match FindConfig(root, present)
        case None => Err(NoConfigFile)
        case Some(p) => Ok(p)
  }

  /**
   The configuration in file `file`: `read` yields its text and `parse` its
   settings. An empty project path becomes the directory holding the file; a
   non-empty one is kept as it is, whether or not it is a directory.
   */
  function Load(file: Path, read: Path -> Option<string>, parse: string -> Option<ConfigFields>): (r: Result<ProjectConfig, ConfigError>)
    requires file.components != []
    ensures read(file).None? ==> r == Err(Unreadable)
    ensures read(file).Some? && parse(read(file).value).None? ==> r == Err(Malformed)
    ensures r.Ok? <==> read(file).Some? && parse(read(file).value).Some?
    ensures r.Ok? ==>
      var c := ConfigFrom(parse(read(file).value).value);
      && r.value.veribleLint == c.veribleLint
      && r.value.verilator == c.verilator
      && r.value.logLevel == c.logLevel
      && (!c.projectPath.IsEmpty() ==> r.value.projectPath == c.projectPath)
      && (c.projectPath.IsEmpty() ==> r.value.projectPath.Join(file.components[|file.components| - 1]) == file)
  {
    match read(file)
    case None => Err(Unreadable)
    case Some(text) =>
      match parse(text)
      case None => Err(Malformed)
      case Some(fields) =>
        var c := ConfigFrom(fields);
        if c.projectPath.IsEmpty() then Ok(c.(projectPath := file.Parent().value))
        else Ok(c)
  }

  /** The whole of reading the configuration: locating the file, then loading it. */
  function ReadConfig(
    rootUri: Option<string>, toFilePath: string -> Option<Path>, present: Path -> bool,
    read: Path -> Option<string>, parse: string -> Option<ConfigFields>): (r: Result<ProjectConfig, ConfigError>)
    ensures Locate(rootUri, toFilePath, present).Err? ==> r == Err(Locate(rootUri, toFilePath, present).error)
    ensures Locate(rootUri, toFilePath, present).Ok? ==> r == Load(Locate(rootUri, toFilePath, present).value, read, parse)
  {
    match Locate(rootUri, toFilePath, present)
    case Err(e) => Err(e)
    case Ok(file) =>
      JoinParent(file.Parent().value, file.components[|file.components| - 1]);
      Load(file, read, parse)
  }

  /** A file that leaves the project path unset makes the project the directory the file was found in. */
  lemma UnsetProjectPathIsConfigDir(
    rootUri: Option<string>, toFilePath: string -> Option<Path>, present: Path -> bool,
    read: Path -> Option<string>, parse: string -> Option<ConfigFields>)
    requires ReadConfig(rootUri, toFilePath, present, read, parse).Ok?
    requires parse(read(Locate(rootUri, toFilePath, present).value).value).value.projectPath.None?
    ensures Some(ReadConfig(rootUri, toFilePath, present, read, parse).value.projectPath)
      == Locate(rootUri, toFilePath, present).value.Parent()
  {
    var file := Locate(rootUri, toFilePath, present).value;
    var dir := ReadConfig(rootUri, toFilePath, present, read, parse).value.projectPath;
    JoinParent(dir, file.components[|file.components| - 1]);
  }

  // ---------------------------------------------------------------------------
  // Start-up
  // ---------------------------------------------------------------------------

  /** A checker stays enabled only when its executable is found; `found` is the executable lookup. */
  function Mask(t: Tool, found: string -> bool): (m: Tool)
    ensures m.enabled <==> t.enabled && found(t.path)
    ensures m.path == t.path && m.args == t.args
  {
    t.(enabled := t.enabled && found(t.path))
  }

  /**
   The configuration after start-up: the loaded one, or the current one when
   loading failed; then each checker whose executable is missing is disabled.
   */
  function Initialize(current: ProjectConfig, loaded: Result<ProjectConfig, ConfigError>, found: string -> bool): (r: ProjectConfig)
    ensures var base := if loaded.Ok? then loaded.value else current;
      && (r.veribleLint.enabled <==> base.veribleLint.enabled && found(base.veribleLint.path))
      && (r.verilator.enabled <==> base.verilator.enabled && found(base.verilator.path))
      && r.veribleLint.path == base.veribleLint.path && r.veribleLint.args == base.veribleLint.args
      && r.verilator.path == base.verilator.path && r.verilator.args == base.verilator.args
      && r.logLevel == base.logLevel && r.projectPath == base.projectPath
  {
    var base := if loaded.Ok? then loaded.value else current;
    base.(veribleLint := Mask(base.veribleLint, found), verilator := Mask(base.verilator, found))
  }

  /** Start-up never enables a checker the configuration disables. */
  lemma InitializeNeverEnables(current: ProjectConfig, loaded: Result<ProjectConfig, ConfigError>, found: string -> bool)
    ensures var r := Initialize(current, loaded, found);
      var base := if loaded.Ok? then loaded.value else current;
      (r.veribleLint.enabled ==> base.veribleLint.enabled) && (r.verilator.enabled ==> base.verilator.enabled)
  {
  }

  /** Masking a second time changes nothing. */
  lemma InitializeIdempotent(current: ProjectConfig, loaded: Result<ProjectConfig, ConfigError>, found: string -> bool)
    ensures var r := Initialize(current, loaded, found);
      Initialize(r, Err(NoConfigFile), found) == r
  {
  }

  /** When no configuration loads, the server runs on the defaults with the missing checkers disabled. */
  lemma FailedLoadKeepsDefaults(e: ConfigError, found: string -> bool)
    ensures var r := Initialize(DefaultConfig, Err(e), found);
      && r.logLevel == Info && r.projectPath.IsEmpty()
      && r.verilator == Tool(found("verilator"), "verilator", ["--lint-only", "-Wall"])
      && r.veribleLint == Tool(found("verible-verilog-lint"), "verible-verilog-lint", [])
  {
  }
}

=== FILE: diagnostics.dfy ===
/**
 Assembling the diagnostics of one file: each enabled checker is run on the
 file's text, and Verilator's findings come before Verible's. `run` stands for
 starting a checker with the file's text on its standard input and waiting
 for it; `filePath` is the result of converting the file's URI to a path.
 */
module Diagnostics {
  import opened Wrappers
  import opened Text
  import opened Paths
  import opened Lsp
  import opened Process
  import opened Config
  import Verilator
  import Verible

  /** Verilator runs in the parent of the file's path, so when it runs that path must have one. */
  predicate Runnable(conf: ProjectConfig, filePath: Option<Path>) {
    conf.verilator.enabled && filePath.Some? ==> filePath.value.components != []
  }

  /** What Verilator contributes: nothing when it is disabled, the path is unknown, or its run yields nothing. */
  function VerilatorPart(filePath: Option<Path>, text: string, conf: ProjectConfig, run: (Command, string) -> Outcome): (ds: seq<Diagnostic>)
    requires Runnable(conf, filePath)
    ensures forall i :: 0 <= i < |ds| ==> ds[i].source == Some("verilator")
    ensures !conf.verilator.enabled || filePath.None? ==> ds == []
  {
    if !conf.verilator.enabled || filePath.None? then []
    else
      var p := filePath.value;
      var cmd := Verilator.SyntaxCommand(p, conf.verilator.path, conf.verilator.args);
      Verilator.Syntax(p, run(cmd, text)).GetOr([])
  }

  /** What Verible contributes: nothing when it is disabled, the path is unknown, or its run yields nothing. */
  function VeriblePart(filePath: Option<Path>, text: string, conf: ProjectConfig, run: (Command, string) -> Outcome): (ds: seq<Diagnostic>)
    ensures forall i :: 0 <= i < |ds| ==> ds[i].source == Some("verible")
    ensures !conf.veribleLint.enabled || filePath.None? ==> ds == []
  {
    if !conf.veribleLint.enabled || filePath.None? then []
    else
      var p := filePath.value;
      var cmd := Verible.LintCommand(p, conf.veribleLint.path, conf.veribleLint.args, conf.projectPath);
      var outcome := run(cmd, text);
      match Verible.Lint(outcome)
      case None => []
      case Some(ds) =>
        assert forall i :: 0 <= i < |ds| ==> Some(ds[i]) == Verible.LineDiagnostic(Lines(outcome.stderr.value)[i]);
        ds
  }

  /**
   `get_diagnostics`: the notification for the file's URI, without a version,
   holding Verilator's diagnostics followed by Verible's.
   */
  function GetDiagnostics(uri: string, filePath: Option<Path>, text: string, conf: ProjectConfig, run: (Command, string) -> Outcome): (r: PublishParams)
    requires Runnable(conf, filePath)
    ensures r.uri == uri && r.version.None?
    ensures filePath.None? ==> r.diagnostics == []
    ensures !conf.verilator.enabled && !conf.veribleLint.enabled ==> r.diagnostics == []
    ensures forall i :: 0 <= i < |r.diagnostics| ==>
      r.diagnostics[i].source == Some("verilator") || r.diagnostics[i].source == Some("verible")
    ensures forall i, j :: 0 <= i < j < |r.diagnostics| && r.diagnostics[j].source == Some("verilator") ==>
      r.diagnostics[i].source == Some("verilator")
  {
    PublishParams(uri, VerilatorPart(filePath, text, conf, run) + VeriblePart(filePath, text, conf, run), None)
  }

  /** The diagnostics a given checker reported. */
  function FromSource(ds: seq<Diagnostic>, source: string): (r: seq<Diagnostic>)
    ensures |r| <= |ds|
    ensures forall i :: 0 <= i < |r| ==> r[i].source == Some(source)
  {
    if ds == [] then []
    else (if ds[0].source == Some(source) then [ds[0]] else []) + FromSource(ds[1..], source)
  }

  lemma {:induction false} FromSourceAppend(a: seq<Diagnostic>, b: seq<Diagnostic>, source: string)
    ensures FromSource(a + b, source) == FromSource(a, source) + FromSource(b, source)
    decreases |a|
  {
    if a == [] {
      assert a + b == b;
    } else {
      assert (a + b)[0] == a[0];
      assert (a + b)[1..] == a[1..] + b;
      FromSourceAppend(a[1..], b, source);
    }
  }

  lemma {:induction false} FromSourceAll(ds: seq<Diagnostic>, source: string)
    requires forall i :: 0 <= i < |ds| ==> ds[i].source == Some(source)
    ensures FromSource(ds, source) == ds
    decreases |ds|
  {
    if ds != [] {
      FromSourceAll(ds[1..], source);
    }
  }

  lemma {:induction false} FromSourceNone(ds: seq<Diagnostic>, source: string)
    requires forall i :: 0 <= i < |ds| ==> ds[i].source != Some(source)
    ensures FromSource(ds, source) == []
    decreases |ds|
  {
    if ds != [] {
      FromSourceNone(ds[1..], source);
    }
  }

  /** Each checker's diagnostics can be told apart in the notification by their source. */
  lemma SeparateBySource(uri: string, filePath: Option<Path>, text: string, conf: ProjectConfig, run: (Command, string) -> Outcome)
    requires Runnable(conf, filePath)
    ensures var ds := GetDiagnostics(uri, filePath, text, conf, run).diagnostics;
      && FromSource(ds, "verilator") == VerilatorPart(filePath, text, conf, run)
      && FromSource(ds, "verible") == VeriblePart(filePath, text, conf, run)
  {
    var a, b := VerilatorPart(filePath, text, conf, run), VeriblePart(filePath, text, conf, run);
    FromSourceAppend(a, b, "verilator");
    FromSourceAppend(a, b, "verible");
    FromSourceAll(a, "verilator");
    FromSourceAll(b, "verible");
    FromSourceNone(a, "verible");
    FromSourceNone(b, "verilator");
  }

  /** A checker that exits successfully contributes nothing, whatever it prints. */
  lemma SuccessContributesNothing(filePath: Option<Path>, text: string, conf: ProjectConfig, run: (Command, string) -> Outcome)
    requires Runnable(conf, filePath) && filePath.Some?
    requires conf.verilator.enabled ==>
      run(Verilator.SyntaxCommand(filePath.value, conf.verilator.path, conf.verilator.args), text).Exited?
      && run(Verilator.SyntaxCommand(filePath.value, conf.verilator.path, conf.verilator.args), text).success
    requires conf.veribleLint.enabled ==>
      run(Verible.LintCommand(filePath.value, conf.veribleLint.path, conf.veribleLint.args, conf.projectPath), text).Exited?
      && run(Verible.LintCommand(filePath.value, conf.veribleLint.path, conf.veribleLint.args, conf.projectPath), text).success
    ensures VerilatorPart(filePath, text, conf, run) == []
    ensures VeriblePart(filePath, text, conf, run) == []
  {
  }

  /** A Verilator run that fails with readable output contributes exactly what its lines collect to, or nothing when one aborts. */
  lemma VerilatorFindings(p: Path, text: string, conf: ProjectConfig, run: (Command, string) -> Outcome, stderr: string)
    requires conf.verilator.enabled && p.components != []
    requires run(Verilator.SyntaxCommand(p, conf.verilator.path, conf.verilator.args), text) == Exited(false, Some(stderr))
    ensures VerilatorPart(Some(p), text, conf, run) == Verilator.Collect(ToStr(p), Lines(stderr)).GetOr([])
  {
  }

  /** A Verible run that fails with readable output contributes every line's diagnostic, or nothing when one line gives none. */
  lemma VeribleFindings(p: Path, text: string, conf: ProjectConfig, run: (Command, string) -> Outcome, stderr: string)
    requires conf.veribleLint.enabled
    requires run(Verible.LintCommand(p, conf.veribleLint.path, conf.veribleLint.args, conf.projectPath), text) == Exited(false, Some(stderr))
    ensures VeriblePart(Some(p), text, conf, run) == Verible.Collect(Lines(stderr)).GetOr([])
  {
  }

  /** With the default settings Verilator runs as `verilator --lint-only -Wall <file>` in the file's directory. */
  lemma DefaultVerilatorCommand(p: Path)
    requires p.components != []
    ensures var cmd := Verilator.SyntaxCommand(p, DefaultVerilator.path, DefaultVerilator.args);
      && cmd.program == "verilator"
      && cmd.args == ["--lint-only", "-Wall", ToStr(p)]
      && Some(cmd.cwd) == p.Parent()
  {
    DefaultArgsAreWords();
    Verilator.SplitArgsOfWords(DefaultVerilator.args);
  }

  lemma DefaultArgsAreWords()
    ensures forall k :: 0 <= k < |DefaultVerilator.args| ==> IsWord(DefaultVerilator.args[k])
  {
    VisibleIsWord(DefaultVerilator.args[0]);
    VisibleIsWord(DefaultVerilator.args[1]);
  }

  /** The two default flags written as one argument, `"--lint-only -Wall"`, are passed as the two default arguments. */
  lemma CombinedDefaultArgs()
    ensures Verilator.SplitArgs(["--lint-only -Wall"]) == DefaultVerilator.args
  {
    var flags := DefaultVerilator.args;
    DefaultArgsAreWords();
    assert "--lint-only -Wall" == flags[0] + ([' '] + flags[1]);
    Verilator.SplitArgsSeparates(flags[0], ' ', flags[1]);
    assert flags == [flags[0], flags[1]];
  }

  /** With the default settings Verible runs as `verible-verilog-lint <file>` in the project directory. */
  lemma DefaultVeribleCommand(p: Path, projectPath: Path)
    ensures var cmd := Verible.LintCommand(p, DefaultVeribleLint.path, DefaultVeribleLint.args, projectPath);
      cmd.program == "verible-verilog-lint" && cmd.args == [ToStr(p)] && cmd.cwd == projectPath
  {
  }

  /** `is_hidden`: an entry whose name is valid UTF-8 and starts with a dot; a name that is not UTF-8 is `None`. */
  function IsHidden(name: Option<string>): (r: bool)
    ensures r <==> name.Some? && |name.value| > 0 && name.value[0] == '.'
  {
    match name
    case None => false
    case Some(s) => StartsWith(s, ".")
  }
}

=== FILE: lsp.dfy ===
/** The parts of the Language Server Protocol types that diagnostics carry. */
module Lsp {
  import opened Wrappers
  import opened Numbers

  /** A zero-based position; both fields are u32 in the protocol. */
  datatype Position = Position(line: U32, character: U32)

  datatype Range = Range(start: Position, end: Position)

  datatype Severity = Error | Warning | Information | Hint

  /**
   One diagnostic. The protocol's `code`, `related_information` and `tags`
   are always absent here and are not modelled.
   */
  datatype Diagnostic = Diagnostic(range: Range, severity: Option<Severity>, source: Option<string>, message: string)

  /** The notification that replaces a file's diagnostics. */
  datatype PublishParams = PublishParams(uri: string, diagnostics: seq<Diagnostic>, version: Option<int>)
}

/** A checker run, seen from outside: what is started and what comes back. */
module Process {
  import opened Wrappers
  import opened Paths

  /** The program, its arguments in order, and the directory it runs in. */
  datatype Command = Command(program: string, args: seq<string>, cwd: Path)

  /**
   What a run yields. `Failed` stands for every way the run can go wrong before
   an exit status is read: the spawn, the write of the buffer to the child's
   standard input, or the wait. `stderr` is `None` when the error stream is not
   valid UTF-8.
   */
  datatype Outcome = Failed | Exited(success: bool, stderr: Option<string>)
}

=== FILE: numbers.dfy ===
/**
 Unsigned 32-bit numbers as the checkers' output handling uses them: decimal
 text parsed with `str::parse::<u32>`, and the 1-based to 0-based conversion
 `n - 1`, which wraps around on 0 in a release build.
 */
module Numbers {
  import opened Wrappers
  import opened Text

  const MaxU32: nat := 0xFFFF_FFFF

  type U32 = n: nat | n <= MaxU32

  function DigitValue(c: char): nat
    requires IsDigit(c)
  {
    c as int - '0' as int
  }

  /** The number that digits `d` denote when appended to the number `acc`. */
  function ValueFrom(acc: nat, d: string): nat
    requires All(d, IsDigit)
    decreases |d|
  {
    if d == [] then acc else ValueFrom(acc * 10 + DigitValue(d[0]), d[1..])
  }

  /** The number a string of decimal digits denotes (leading zeros allowed). */
  function DigitsValue(d: string): nat
    requires All(d, IsDigit)
  {
    ValueFrom(0, d)
  }

  lemma {:induction false} ValueFromGrows(acc: nat, d: string)
    requires All(d, IsDigit)
    ensures ValueFrom(acc, d) >= acc
    decreases |d|
  {
    if d != [] {
      ValueFromGrows(acc * 10 + DigitValue(d[0]), d[1..]);
    }
  }

  /**
   The digit-by-digit accumulation of `u32::from_str`: each step multiplies
   by ten and adds a digit, and the first step that leaves the u32 range fails.
   */
  function CheckedFrom(acc: U32, d: string): (r: Option<U32>)
    requires All(d, IsDigit)
    ensures ValueFrom(acc, d) <= MaxU32 ==> r == Some(ValueFrom(acc, d))
    ensures ValueFrom(acc, d) > MaxU32 ==> r == None
    decreases |d|
  {
    if d == [] then Some(acc)
    else
      var v := acc * 10 + DigitValue(d[0]);
      if v > MaxU32 then
        ValueFromGrows(v, d[1..]);
        None
      else CheckedFrom(v, d[1..])
  }

  /** What `parse::<u32>` reads as digits: the text after one optional leading '+'. */
  function Unsigned(s: string): string {
    if |s| > 0 && s[0] == '+' then s[1..] else s
  }

  /** Text that `parse::<u32>` accepts: optional '+', then at least one digit, denoting at most 2^32 - 1. */
  predicate IsU32Text(s: string) {
    var d := Unsigned(s);
    d != [] && All(d, IsDigit) && DigitsValue(d) <= MaxU32
  }

  /** `str::parse::<u32>`: `None` for empty text, a non-digit, or a value beyond the u32 range. */
  function ParseU32(s: string): (r: Option<U32>)
    ensures r.Some? <==> IsU32Text(s)
    ensures r.Some? ==> r.value == DigitsValue(Unsigned(s))
  {
    var d := Unsigned(s);
    if d == [] || !All(d, IsDigit) then None else CheckedFrom(0, d)
  }

  function DigitChar(k: nat): (c: char)
    requires k < 10
    ensures IsDigit(c) && DigitValue(c) == k
  {
    ('0' as int + k) as char
  }

  /** The shortest decimal text of `n`. */
  function Decimal(n: nat): (s: string)
    ensures |s| > 0 && All(s, IsDigit)
  {
    if n < 10 then [DigitChar(n)]
    else
      AllAppend(Decimal(n / 10), [DigitChar(n % 10)], IsDigit);
      Decimal(n / 10) + [DigitChar(n % 10)]
  }

  /** The decimal text of an optional number, as a checker prints an optional column. */
  function OptionalDecimal(n: Option<U32>): Option<string> {
    if n.Some? then Some(Decimal(n.value)) else None
  }

  lemma {:induction false} ValueFromSnoc(acc: nat, d: string, c: char)
    requires All(d, IsDigit) && IsDigit(c)
    ensures All(d + [c], IsDigit)
    ensures ValueFrom(acc, d + [c]) == ValueFrom(acc, d) * 10 + DigitValue(c)
    decreases |d|
  {
    var e := d + [c];
    AllAppend(d, [c], IsDigit);
    if d == [] {
      assert e[1..] == [];
    } else {
      assert e[0] == d[0];
      assert e[1..] == d[1..] + [c];
      ValueFromSnoc(acc * 10 + DigitValue(d[0]), d[1..], c);
    }
  }

  lemma {:induction false} DecimalValue(n: nat)
    ensures DigitsValue(Decimal(n)) == n
    decreases n
  {
    if n < 10 {
      var d := Decimal(n);
      assert d == [DigitChar(n)] && d[1..] == [];
      assert ValueFrom(0, d) == ValueFrom(DigitValue(d[0]), []);
    } else {
      DecimalValue(n / 10);
      ValueFromSnoc(0, Decimal(n / 10), DigitChar(n % 10));
    }
  }

  /** Round trip: the decimal text of a u32 parses back to it. */
  lemma ParseDecimal(n: U32)
    ensures ParseU32(Decimal(n)) == Some(n)
  {
    DecimalValue(n);
    assert Unsigned(Decimal(n)) == Decimal(n);
  }

  /** The decimal text of a number beyond the u32 range does not parse. */
  lemma ParseOversized(n: nat)
    requires n > MaxU32
    ensures ParseU32(Decimal(n)).None?
  {
    DecimalValue(n);
    assert Unsigned(Decimal(n)) == Decimal(n);
  }

  /** `n - 1` on u32 in a release build: 0 wraps around to 2^32 - 1. */
  function WrappingDec(n: U32): (r: U32)
    ensures (r + 1) % (MaxU32 + 1) == n
  {
    if n == 0 then MaxU32 else n - 1
  }
}

=== FILE: paths.dfy ===
/**
 File-system paths as `std::path` treats normalised paths: an optional root
 followed by components. `Parent`, `Join` and `Ancestors` follow
 `Path::parent`, `Path::join` (with a relative name) and `Path::ancestors`.
 */
module Paths {
  import opened Wrappers

  datatype Path = Path(absolute: bool, components: seq<string>) {

    /** `as_os_str().is_empty()`: the path `PathBuf::new()` builds. */
    predicate IsEmpty() {
      !absolute && components == []
    }

    /** `Path::parent`: the path without its last component; none for a root or an empty path. */
    function Parent(): (r: Option<Path>)
      ensures r.Some? <==> components != []
      ensures r.Some? ==> r.value.absolute == absolute
      ensures r.Some? ==> r.value.components + [components[|components| - 1]] == components
    {
      if components == [] then None
      else Some(Path(absolute, components[..|components| - 1]))
    }

    /** `Path::join` with a single relative component. */
    function Join(name: string): Path {
      Path(absolute, components + [name])
    }
  }

  /** Joining a name and taking the parent gives the directory back. */
  lemma JoinParent(p: Path, name: string)
    ensures p.Join(name).Parent() == Some(p)
  {
    assert (p.components + [name])[..|p.components|] == p.components;
  }

  function JoinWith(parts: seq<string>, sep: string): string {
    if parts == [] then []
    else if |parts| == 1 then parts[0]
    else parts[0] + sep + JoinWith(parts[1..], sep)
  }

  /** Appending one more part adds the separator and the part, unless there was nothing before it. */
  lemma {:induction false} JoinWithSnoc(parts: seq<string>, name: string, sep: string)
    ensures JoinWith(parts + [name], sep) == JoinWith(parts, sep) + (if parts == [] then "" else sep) + name
    decreases |parts|
  {
    if |parts| == 1 {
      assert parts + [name] == [parts[0], name];
      assert [parts[0], name][1..] == [name];
    } else if |parts| > 1 {
      assert (parts + [name])[1..] == parts[1..] + [name];
      JoinWithSnoc(parts[1..], name, sep);
    }
  }

  /** `Path::to_str`: the root, then the components separated by '/'. */
  function ToStr(p: Path): (r: string)
    ensures p.components == [] ==> r == (if p.absolute then "/" else "")
    ensures p.absolute ==> |r| > 0 && r[0] == '/'
  {
    (if p.absolute then "/" else "") + JoinWith(p.components, "/")
  }

  /** The text of a joined path is the directory's text, a '/' unless the directory is bare, and the name. */
  lemma ToStrJoin(p: Path, name: string)
    ensures ToStr(p.Join(name)) == ToStr(p) + (if p.components == [] then "" else "/") + name
  {
    JoinWithSnoc(p.components, name, "/");
  }

  /**
   `Path::ancestors`: the path itself, then each parent in turn, nearest first,
   ending with the root (or the empty path for a relative one).
   */
  function Ancestors(p: Path): (r: seq<Path>)
    ensures |r| == |p.components| + 1
    ensures forall i :: 0 <= i < |r| ==> r[i] == Path(p.absolute, p.components[..|p.components| - i])
    decreases |p.components|
  {
    match p.Parent()
    case None => [p]
    case Some(q) => [p] + Ancestors(q)
  }
}

=== FILE: text.dfy ===
/**
 Character classes and the three pieces of Rust's `str` API the checkers'
 output handling relies on: `starts_with`, `lines` and `split_whitespace`.
 Strings are sequences of Unicode scalar values.
 */
module Text {
  import opened Wrappers

  /** Unicode White_Space: the class of `char::is_whitespace` and of `\s` in the `regex` crate. */
  predicate IsWhitespace(c: char) {
    || ('\t' <= c <= '\r')
    || c == ' '
    || c == '\U{0085}'
    || c == '\U{00A0}'
    || c == '\U{1680}'
    || ('\U{2000}' <= c <= '\U{200A}')
    || c == '\U{2028}'
    || c == '\U{2029}'
    || c == '\U{202F}'
    || c == '\U{205F}'
    || c == '\U{3000}'
  }

  predicate NotWhitespace(c: char) {
    !IsWhitespace(c)
  }

  /** An ASCII decimal digit. */
  predicate IsDigit(c: char) {
    '0' <= c <= '9'
  }

  predicate NotColon(c: char) {
    c != ':'
  }

  predicate NotNewline(c: char) {
    c != '\n'
  }

  /** Every character of `s` satisfies `p`. */
  predicate All(s: string, p: char -> bool)
    decreases |s|
  {
    s == [] || (p(s[0]) && All(s[1..], p))
  }

  lemma {:induction false} AllIndex(s: string, p: char -> bool, i: nat)
    requires All(s, p) && i < |s|
    ensures p(s[i])
    decreases i
  {
    if i > 0 {
      AllIndex(s[1..], p, i - 1);
    }
  }

  lemma AllPrefix(s: string, p: char -> bool, n: nat)
    requires All(s, p) && n <= |s|
    ensures All(s[..n], p)
  {
    assert s == s[..n] + s[n..];
    AllAppend(s[..n], s[n..], p);
  }

  lemma {:induction false} AllAppend(a: string, b: string, p: char -> bool)
    ensures All(a + b, p) <==> All(a, p) && All(b, p)
    decreases |a|
  {
    if a == [] {
      assert a + b == b;
    } else {
      assert (a + b)[0] == a[0];
      assert (a + b)[1..] == a[1..] + b;
      AllAppend(a[1..], b, p);
    }
  }

  predicate StartsWith(s: string, prefix: string) {
    |prefix| <= |s| && s[..|prefix|] == prefix
  }

  /** Texts that differ in their first character do not start with one another. */
  lemma NotStartsWith(s: string, prefix: string)
    requires |s| > 0 && |prefix| > 0 && s[0] != prefix[0]
    ensures !StartsWith(s, prefix)
  {
    assert |prefix| <= |s| ==> s[..|prefix|][0] == s[0];
  }

  lemma StartsWithSplit(s: string, prefix: string)
    requires StartsWith(s, prefix)
    ensures s == prefix + s[|prefix|..]
  {
    assert s == s[..|prefix|] + s[|prefix|..];
  }

  lemma StartsWithConcat(x: string, y: string)
    ensures StartsWith(x + y, x) && (x + y)[|x|..] == y
  {
    assert (x + y)[..|x|] == x;
  }

  /** Length of the longest prefix of `s` whose characters all satisfy `p`. */
  function Span(s: string, p: char -> bool): (n: nat)
    ensures n <= |s|
    ensures All(s[..n], p)
    ensures n == |s| || !p(s[n])
  {
    if s == [] || !p(s[0]) then 0
    else
      var n := 1 + Span(s[1..], p);
      assert s[..n][1..] == s[1..][..n - 1];
      n
  }

  /** The span of `p` over `a + b` stops exactly at the end of `a` when `b` starts with a character outside `p`. */
  lemma SpanConcat(a: string, b: string, p: char -> bool)
    requires All(a, p)
    requires b == [] || !p(b[0])
    ensures Span(a + b, p) == |a|
    decreases |a|
  {
    if a == [] {
      assert a + b == b;
    } else {
      assert (a + b)[0] == a[0];
      assert (a + b)[1..] == a[1..] + b;
      SpanConcat(a[1..], b, p);
    }
  }

  /**
   The longest prefix of `p` characters, when the character right after it
   is `sep`: that prefix and the text after the separator.
   */
  function Cut(s: string, p: char -> bool, sep: char): (r: Option<(string, string)>)
    ensures r.Some? ==> All(r.value.0, p) && s == r.value.0 + ([sep] + r.value.1)
  {
    var n := Span(s, p);
    if n == |s| || s[n] != sep then None
    else
      assert s == s[..n] + ([sep] + s[n + 1..]);
      Some((s[..n], s[n + 1..]))
  }

  /** The split a separator-terminated field produces. */
  lemma CutConcat(x: string, sep: char, rest: string, p: char -> bool)
    requires All(x, p) && !p(sep)
    ensures Cut(x + ([sep] + rest), p, sep) == Some((x, rest))
  {
    var s := x + ([sep] + rest);
    SpanConcat(x, [sep] + rest, p);
    assert s[..|x|] == x && s[|x| + 1..] == rest;
  }

  /** The number of occurrences of `x` in `s`. */
  function Count(s: string, x: char): nat {
    if s == [] then 0 else (if s[0] == x then 1 else 0) + Count(s[1..], x)
  }

  lemma {:induction false} CountAppend(a: string, b: string, x: char)
    ensures Count(a + b, x) == Count(a, x) + Count(b, x)
    decreases |a|
  {
    if a == [] {
      assert a + b == b;
    } else {
      assert (a + b)[0] == a[0];
      assert (a + b)[1..] == a[1..] + b;
      CountAppend(a[1..], b, x);
    }
  }

  lemma {:induction false} CountNone(s: string, x: char, p: char -> bool)
    requires All(s, p) && !p(x)
    ensures Count(s, x) == 0
    decreases |s|
  {
    if s != [] {
      CountNone(s[1..], x, p);
    }
  }

  lemma CountSuffix(s: string, j: nat, x: char)
    requires j <= |s|
    ensures Count(s[j..], x) <= Count(s, x)
  {
    assert s == s[..j] + s[j..];
    CountAppend(s[..j], s[j..], x);
  }

  // ---------------------------------------------------------------------------
  // str::lines
  // ---------------------------------------------------------------------------

  predicate EndsWithCr(l: string) {
    |l| > 0 && l[|l| - 1] == '\r'
  }

  /** Drops one carriage return that preceded a line feed. */
  function StripCr(l: string): string {
    if EndsWithCr(l) then l[..|l| - 1] else l
  }

  lemma StripCrKeeps(l: string, p: char -> bool)
    requires All(l, p)
    ensures All(StripCr(l), p)
  {
    if EndsWithCr(l) {
      AllPrefix(l, p, |l| - 1);
    }
  }

  /**
   `str::lines`: the text is cut after every line feed; the line feed, and a
   carriage return right before it, are removed. A final line without a line
   feed is kept as it is; there is no empty last line after a final line feed.
   */
  function Lines(s: string): (ls: seq<string>)
    ensures forall k :: 0 <= k < |ls| ==> All(ls[k], NotNewline)
    ensures s == [] <==> ls == []
    decreases |s|
  {
    if s == [] then []
    else
      var i := Span(s, NotNewline);
      if i == |s| then
        assert s[..i] == s;
        [s]
      else
        StripCrKeeps(s[..i], NotNewline);
        [StripCr(s[..i])] + Lines(s[i + 1..])
  }

  /** The text whose lines are `ls`, each terminated by a line feed. */
  function Unlines(ls: seq<string>): string {
    if ls == [] then [] else ls[0] + "\n" + Unlines(ls[1..])
  }

  /** Round trip: cutting the joined lines gives back the lines. */
  lemma {:induction false} LinesOfUnlines(ls: seq<string>)
    requires forall k :: 0 <= k < |ls| ==> All(ls[k], NotNewline) && !EndsWithCr(ls[k])
    ensures Lines(Unlines(ls)) == ls
  {
    if ls != [] {
      var rest := Unlines(ls[1..]);
      var s := ls[0] + "\n" + rest;
      assert s == ls[0] + ("\n" + rest);
      SpanConcat(ls[0], "\n" + rest, NotNewline);
      assert s[..|ls[0]|] == ls[0];
      assert s[|ls[0]| + 1..] == rest;
      LinesOfUnlines(ls[1..]);
    }
  }

  /** A line feed ends the line: the line comes out whole, provided it does not end in '\r'. */
  lemma LinesLf(l: string, rest: string)
    requires All(l, NotNewline) && !EndsWithCr(l)
    ensures Lines(l + "\n" + rest) == [l] + Lines(rest)
  {
    var s := l + "\n" + rest;
    assert s == l + ("\n" + rest);
    SpanConcat(l, "\n" + rest, NotNewline);
    assert s[..|l|] == l;
    assert s[|l| + 1..] == rest;
  }

  /** A "\r\n" ends the line and both characters are dropped, whatever the line ends in. */
  lemma LinesCrLf(l: string, rest: string)
    requires All(l, NotNewline)
    ensures Lines(l + "\r\n" + rest) == [l] + Lines(rest)
  {
    var s := l + "\r\n" + rest;
    var lc := l + "\r";
    AllAppend(l, "\r", NotNewline);
    assert s == lc + ("\n" + rest);
    SpanConcat(lc, "\n" + rest, NotNewline);
    assert s[..|lc|] == lc;
    assert lc[..|lc| - 1] == l;
    assert s[|lc| + 1..] == rest;
  }

  /** A final non-empty line without a line feed is kept as it is, a trailing '\r' included. */
  lemma LinesLast(l: string)
    requires All(l, NotNewline) && l != []
    ensures Lines(l) == [l]
  {
    SpanConcat(l, [], NotNewline);
    assert l + [] == l;
  }

  /**
   The text whose lines are `ls`: line k ends in "\r\n" when `crlf[k]` holds
   and in "\n" otherwise, and `last` follows without any line ending.
   */
  function Terminated(ls: seq<string>, crlf: seq<bool>, last: string): string
    requires |crlf| == |ls|
  {
    if ls == [] then last
    else ls[0] + (if crlf[0] then "\r\n" else "\n") + Terminated(ls[1..], crlf[1..], last)
  }

  /** One line and its ending, "\r\n" when `cr` holds and "\n" otherwise, come off the front. */
  lemma LinesEnded(l: string, cr: bool, rest: string)
    requires All(l, NotNewline) && (!cr ==> !EndsWithCr(l))
    ensures Lines(l + (if cr then "\r\n" else "\n") + rest) == [l] + Lines(rest)
  {
    if cr {
      LinesCrLf(l, rest);
    } else {
      LinesLf(l, rest);
    }
  }

  /**
   Every line is free of line feeds, and a line ended by a bare "\n" does
   not end in '\r' (the "\r\n" would otherwise be read as its ending).
   */
  predicate WellEnded(ls: seq<string>, crlf: seq<bool>)
    requires |crlf| == |ls|
  {
    forall k :: 0 <= k < |ls| ==> All(ls[k], NotNewline) && (!crlf[k] ==> !EndsWithCr(ls[k]))
  }

  lemma WellEndedRest(ls: seq<string>, crlf: seq<bool>)
    requires |crlf| == |ls| && ls != [] && WellEnded(ls, crlf)
    ensures All(ls[0], NotNewline) && (!crlf[0] ==> !EndsWithCr(ls[0]))
    ensures WellEnded(ls[1..], crlf[1..])
  {
    forall k | 0 <= k < |ls| - 1
      ensures All(ls[1..][k], NotNewline) && (!crlf[1..][k] ==> !EndsWithCr(ls[1..][k]))
    {
      assert ls[1..][k] == ls[k + 1] && crlf[1..][k] == crlf[k + 1];
    }
  }

  /**
   Round trip for every mix of line endings: each line comes back without its
   ending, and a non-empty unterminated last line comes back whole.
   */
  lemma {:induction false} LinesOfTerminated(ls: seq<string>, crlf: seq<bool>, last: string)
    requires |crlf| == |ls| && WellEnded(ls, crlf) && All(last, NotNewline)
    ensures Lines(Terminated(ls, crlf, last)) == ls + (if last == [] then [] else [last])
  {
    var tail: seq<string> := if last == [] then [] else [last];
    if ls == [] {
      if last != [] {
        LinesLast(last);
      }
      assert ls + tail == tail;
    } else {
      var rest := Terminated(ls[1..], crlf[1..], last);
      var ending := if crlf[0] then "\r\n" else "\n";
      assert Terminated(ls, crlf, last) == ls[0] + ending + rest;
      WellEndedRest(ls, crlf);
      LinesEnded(ls[0], crlf[0], rest);
      LinesOfTerminated(ls[1..], crlf[1..], last);
      assert ls + tail == [ls[0]] + (ls[1..] + tail);
    }
  }

  // ---------------------------------------------------------------------------
  // str::split_whitespace
  // ---------------------------------------------------------------------------

  /** A non-empty word without whitespace: what `split_whitespace` yields. */
  predicate IsWord(w: string) {
    |w| > 0 && All(w, NotWhitespace)
  }

  /** `str::split_whitespace`: the maximal runs of non-whitespace, in order; empty pieces never appear. */
  function SplitWhitespace(s: string): (ws: seq<string>)
    ensures forall k :: 0 <= k < |ws| ==> IsWord(ws[k])
    decreases |s|
  {
    var lead := Span(s, IsWhitespace);
    if lead == |s| then []
    else
      var t := s[lead..];
      var n := Span(t, NotWhitespace);
      [t[..n]] + SplitWhitespace(t[n..])
  }

  /** `s` with every whitespace character removed. */
  function RemoveWhitespace(s: string): string {
    if s == [] then []
    else (if IsWhitespace(s[0]) then [] else [s[0]]) + RemoveWhitespace(s[1..])
  }

  function Concat(ws: seq<string>): string {
    if ws == [] then [] else ws[0] + Concat(ws[1..])
  }

  /** The words separated (and followed) by single spaces. */
  function JoinWords(ws: seq<string>): string {
    if ws == [] then [] else ws[0] + " " + JoinWords(ws[1..])
  }

  lemma {:induction false} RemoveWhitespaceAppend(a: string, b: string)
    ensures RemoveWhitespace(a + b) == RemoveWhitespace(a) + RemoveWhitespace(b)
    decreases |a|
  {
    if a == [] {
      assert a + b == b;
    } else {
      assert (a + b)[0] == a[0];
      assert (a + b)[1..] == a[1..] + b;
      RemoveWhitespaceAppend(a[1..], b);
    }
  }

  lemma {:induction false} RemoveWhitespaceOfBlank(s: string)
    requires All(s, IsWhitespace)
    ensures RemoveWhitespace(s) == []
    decreases |s|
  {
    if s != [] {
      RemoveWhitespaceOfBlank(s[1..]);
    }
  }

  lemma {:induction false} RemoveWhitespaceOfSolid(s: string)
    requires All(s, NotWhitespace)
    ensures RemoveWhitespace(s) == s
    decreases |s|
  {
    if s != [] {
      RemoveWhitespaceOfSolid(s[1..]);
    }
  }

  /** Splitting keeps every non-whitespace character, in order, and nothing else. */
  lemma {:induction false} SplitWhitespaceKeepsContent(s: string)
    ensures Concat(SplitWhitespace(s)) == RemoveWhitespace(s)
    decreases |s|
  {
    var lead := Span(s, IsWhitespace);
    assert s == s[..lead] + s[lead..];
    RemoveWhitespaceOfBlank(s[..lead]);
    RemoveWhitespaceAppend(s[..lead], s[lead..]);
    if lead < |s| {
      var t := s[lead..];
      var n := Span(t, NotWhitespace);
      assert t == t[..n] + t[n..];
      RemoveWhitespaceOfSolid(t[..n]);
      RemoveWhitespaceAppend(t[..n], t[n..]);
      SplitWhitespaceKeepsContent(t[n..]);
    }
  }

  /** Splitting gives no words exactly when the text is all whitespace. */
  lemma SplitWhitespaceEmpty(s: string)
    ensures SplitWhitespace(s) == [] <==> All(s, IsWhitespace)
  {
    var lead := Span(s, IsWhitespace);
    if All(s, IsWhitespace) && lead < |s| {
      AllIndex(s, IsWhitespace, lead);
    }
    assert s[..|s|] == s;
  }

  /** Leading whitespace does not change the split. */
  lemma SplitWhitespaceSkipsSpace(c: char, x: string)
    requires IsWhitespace(c)
    ensures SplitWhitespace([c] + x) == SplitWhitespace(x)
  {
    var s := [c] + x;
    assert s[0] == c && s[1..] == x;
    var l := Span(x, IsWhitespace);
    assert Span(s, IsWhitespace) == 1 + l;
    assert s[1 + l..] == x[l..];
  }

  /**
   Whitespace separates words: a word followed by any whitespace character
   is split off on its own, and the split goes on after the whitespace.
   */
  lemma SplitAtWhitespace(w: string, c: char, x: string)
    requires IsWord(w) && IsWhitespace(c)
    ensures SplitWhitespace(w + ([c] + x)) == [w] + SplitWhitespace(x)
  {
    var s := w + ([c] + x);
    assert s[0] == w[0];
    assert Span(s, IsWhitespace) == 0;
    assert s[0..] == s;
    SpanConcat(w, [c] + x, NotWhitespace);
    assert s[..|w|] == w;
    assert s[|w|..] == [c] + x;
    SplitWhitespaceSkipsSpace(c, x);
  }

  /** Printable ASCII other than the space is not whitespace. */
  lemma {:induction false} VisibleIsWord(s: string)
    requires |s| > 0 && forall i :: 0 <= i < |s| ==> '!' <= s[i] <= '~'
    ensures IsWord(s)
    decreases |s|
  {
    if |s| > 1 {
      VisibleIsWord(s[1..]);
    }
  }

  /** A single word splits into itself. */
  lemma SplitWord(w: string)
    requires IsWord(w)
    ensures SplitWhitespace(w) == [w]
  {
    assert Span(w, IsWhitespace) == 0;
    assert w[0..] == w;
    SpanConcat(w, [], NotWhitespace);
    assert w + [] == w;
    assert w[..|w|] == w && w[|w|..] == [];
  }

  /** Round trip: splitting words joined by spaces gives back the words. */
  lemma {:induction false} SplitJoinWords(ws: seq<string>)
    requires forall k :: 0 <= k < |ws| ==> IsWord(ws[k])
    ensures SplitWhitespace(JoinWords(ws)) == ws
  {
    if ws != [] {
      var w := ws[0];
      var rest := JoinWords(ws[1..]);
      assert w + " " + rest == w + ([' '] + rest);
      SplitAtWhitespace(w, ' ', rest);
      SplitJoinWords(ws[1..]);
    }
  }
}

=== FILE: verible.dfy ===
/**
 Verible's linter as a checker: its command line, and the translation of its
 error stream into diagnostics. Every line of the stream must be a finding
 shaped
   path:line:startcol[-endcol]: message [rule]
 or the whole run yields nothing.
 */
module Verible {
  import opened Wrappers
  import opened Seqs
  import opened Text
  import opened Numbers
  import opened Paths
  import opened Lsp
  import opened Process

  // ---------------------------------------------------------------------------
  // The line pattern
  //   ^.+:(?P<line>\d*):(?P<startcol>\d*)(?:-(?P<endcol>\d*))?:\s(?P<message>.*)\s.*$
  // The leading `.+` is greedy, so the match cuts the path off at the LAST
  // colon after which the rest of the pattern fits. From that colon on the
  // pattern matches in at most one way, and the message is everything up to
  // the last whitespace character of what follows.
  // ---------------------------------------------------------------------------

  /** The groups one match captures; the digit groups may be empty. */
  datatype Captures = Captures(line: string, startcol: string, endcol: Option<string>, message: string)

  predicate WellFormed(c: Captures) {
    && All(c.line, IsDigit)
    && All(c.startcol, IsDigit)
    && (c.endcol.Some? ==> All(c.endcol.value, IsDigit))
  }

  /** The index of the last whitespace character of `y`, if any. */
  function LastWhitespace(y: string): (r: Option<nat>)
    ensures r.Some? ==> r.value < |y| && IsWhitespace(y[r.value]) && All(y[r.value + 1..], NotWhitespace)
    ensures r.None? ==> All(y, NotWhitespace)
    decreases |y|
  {
    if y == [] then None
    else
      var last := |y| - 1;
      if IsWhitespace(y[last]) then
        assert y[last + 1..] == [];
        Some(last)
      else
        var r := LastWhitespace(y[..last]);
        AllAppend([y[last]], [], NotWhitespace);
        if r.Some? then
          assert y[r.value + 1..] == y[..last][r.value + 1..] + [y[last]];
          AllAppend(y[..last][r.value + 1..], [y[last]], NotWhitespace);
          r
        else
          assert y == y[..last] + [y[last]];
          AllAppend(y[..last], [y[last]], NotWhitespace);
          r
  }

  /** `(?:-(?P<endcol>\d*))?:`: the end column when a dash leads, and the text after the colon. */
  function EndColumn(w: string): (r: Option<(Option<string>, string)>)
    ensures r.Some? && r.value.0.Some? ==> All(r.value.0.value, IsDigit)
  {
    if StartsWith(w, "-") then
      match Cut(w[1..], IsDigit, ':')
      case None => None
      case Some((e, x)) => Some((Some(e), x))
    else if StartsWith(w, ":") then Some((None, w[1..]))
    else None
  }

  /** `(?P<startcol>\d*)(?:-(?P<endcol>\d*))?:`: both columns, and the text after the colon. */
  function Columns(v: string): (r: Option<(string, Option<string>, string)>)
    ensures r.Some? ==> All(r.value.0, IsDigit) && (r.value.1.Some? ==> All(r.value.1.value, IsDigit))
  {
    var n := Span(v, IsDigit);
    match EndColumn(v[n..])
    case None => None
    case Some((endcol, x)) => Some((v[..n], endcol, x))
  }

  /** `\s(?P<message>.*)\s.*$`: everything between a leading whitespace character and the last one. */
  function Message(x: string): (r: Option<string>)
    ensures r.None? <==> x == [] || !IsWhitespace(x[0]) || All(x[1..], NotWhitespace)
    ensures r.Some? ==> var n := |r.value|;
      && n + 1 < |x| && IsWhitespace(x[0]) && x[1..n + 1] == r.value
      && IsWhitespace(x[n + 1]) && All(x[n + 2..], NotWhitespace)
  {
    if x == [] || !IsWhitespace(x[0]) then None
    else
      var y := x[1..];
      match LastWhitespace(y)
      case None => None
      case Some(i) =>
        assert !All(y, NotWhitespace) by {
          if All(y, NotWhitespace) {
            AllIndex(y, NotWhitespace, i);
          }
        }
        assert x[i + 1] == y[i] && x[i + 2..] == y[i + 1..] && x[1..i + 1] == y[..i];
        Some(y[..i])
  }

  /** The pattern from the colon that ends the path on. */
  function Fields(t: string): (r: Option<Captures>)
    ensures r.Some? ==> WellFormed(r.value)
  {
    if !StartsWith(t, ":") then None
    else
      match Cut(t[1..], IsDigit, ':')
      case None => None
      case Some((line, v)) =>
        match Columns(v)
        case None => None
        case Some((startcol, endcol, x)) =>
          match Message(x)
          case None => None
          case Some(message) => Some(Captures(line, startcol, endcol, message))
  }

  /** The largest `q` with `1 <= q < p` whose suffix `s[q..]` satisfies `f`: the longest non-empty prefix first. */
  function LastSplit(s: string, p: nat, f: string -> bool): (r: Option<nat>)
    requires p <= |s|
    ensures r.Some? ==> 1 <= r.value < p && f(s[r.value..])
    ensures r.Some? ==> forall q :: r.value < q < p ==> !f(s[q..])
    ensures r.None? ==> forall q :: 1 <= q < p ==> !f(s[q..])
    decreases p
  {
    if p <= 1 then None
    else if f(s[p - 1..]) then Some(p - 1)
    else LastSplit(s, p - 1, f)
  }

  predicate FieldsMatch(t: string) {
    Fields(t).Some?
  }

  /** `Regex::captures` for the anchored pattern: the fields after the longest path they can follow. */
  function Match(s: string): (r: Option<Captures>)
    ensures r.Some? <==> LastSplit(s, |s|, FieldsMatch).Some?
    ensures r.Some? ==> r == Fields(s[LastSplit(s, |s|, FieldsMatch).value..])
  {
    match LastSplit(s, |s|, FieldsMatch)
    case None => None
    case Some(q) => Fields(s[q..])
  }

  // ---------------------------------------------------------------------------
  // The text of a match
  // ---------------------------------------------------------------------------

  /** From the optional end column on: `-endcol:` or `:`, then `rest`. */
  function EndText(endcol: Option<string>, rest: string): string {
    if endcol.Some? then "-" + (endcol.value + (":" + rest)) else ":" + rest
  }

  /** The whitespace `gap`, the message, the whitespace `sep` and the trailing `tail`. */
  function MessageText(message: string, gap: char, sep: char, tail: string): string {
    [gap] + (message + ([sep] + tail))
  }

  /** From the colon that ends the path on. */
  function FieldsText(c: Captures, gap: char, sep: char, tail: string): string {
    ":" + (c.line + (":" + (c.startcol + EndText(c.endcol, MessageText(c.message, gap, sep, tail)))))
  }

  lemma SingleColon(t: string)
    ensures ":" + t == [':'] + t
  {
  }

  lemma EndColumnOfText(endcol: Option<string>, rest: string)
    requires endcol.Some? ==> All(endcol.value, IsDigit)
    ensures EndColumn(EndText(endcol, rest)) == Some((endcol, rest))
  {
    if endcol.Some? {
      var e := endcol.value;
      StartsWithConcat("-", e + (":" + rest));
      SingleColon(rest);
      CutConcat(e, ':', rest, IsDigit);
    } else {
      NotStartsWith(":" + rest, "-");
      StartsWithConcat(":", rest);
    }
  }

  lemma EndColumnSound(w: string)
    requires EndColumn(w).Some?
    ensures w == EndText(EndColumn(w).value.0, EndColumn(w).value.1)
  {
    if StartsWith(w, "-") {
      StartsWithSplit(w, "-");
      SingleColon(EndColumn(w).value.1);
    } else {
      StartsWithSplit(w, ":");
    }
  }

  lemma ColumnsOfText(startcol: string, endcol: Option<string>, rest: string)
    requires All(startcol, IsDigit) && (endcol.Some? ==> All(endcol.value, IsDigit))
    ensures Columns(startcol + EndText(endcol, rest)) == Some((startcol, endcol, rest))
  {
    var e := EndText(endcol, rest);
    SpanConcat(startcol, e, IsDigit);
    StartsWithConcat(startcol, e);
    EndColumnOfText(endcol, rest);
  }

  lemma ColumnsSound(v: string)
    requires Columns(v).Some?
    ensures var (startcol, endcol, x) := Columns(v).value; v == startcol + EndText(endcol, x)
  {
    var n := Span(v, IsDigit);
    EndColumnSound(v[n..]);
    assert v == v[..n] + v[n..];
  }

  lemma {:induction false} LastWhitespaceOf(m: string, sep: char, tail: string)
    requires IsWhitespace(sep) && All(tail, NotWhitespace)
    ensures LastWhitespace(m + ([sep] + tail)) == Some(|m|)
    decreases |tail|
  {
    var y := m + ([sep] + tail);
    if tail == [] {
      assert y[|y| - 1] == sep;
    } else {
      var last := |tail| - 1;
      AllIndex(tail, NotWhitespace, last);
      AllPrefix(tail, NotWhitespace, last);
      assert y[|y| - 1] == tail[last];
      assert y[..|y| - 1] == m + ([sep] + tail[..last]);
      LastWhitespaceOf(m, sep, tail[..last]);
    }
  }

  /** The message is everything up to the last whitespace character. */
  lemma MessageOfText(message: string, gap: char, sep: char, tail: string)
    requires IsWhitespace(gap) && IsWhitespace(sep) && All(tail, NotWhitespace)
    ensures Message(MessageText(message, gap, sep, tail)) == Some(message)
  {
    var y := message + ([sep] + tail);
    assert MessageText(message, gap, sep, tail)[1..] == y;
    LastWhitespaceOf(message, sep, tail);
    assert y[..|message|] == message;
  }

  lemma MessageSound(x: string)
    requires Message(x).Some?
    ensures exists gap, sep, tail ::
      IsWhitespace(gap) && IsWhitespace(sep) && All(tail, NotWhitespace) && x == MessageText(Message(x).value, gap, sep, tail)
  {
    var y := x[1..];
    var i := LastWhitespace(y).value;
    assert x == [x[0]] + y;
    assert y == y[..i] + ([y[i]] + y[i + 1..]);
    assert x == MessageText(Message(x).value, x[0], y[i], y[i + 1..]);
  }

  /** Round trip from the path's colon on: the fields of any well-formed captures are matched back. */
  lemma FieldsRender(c: Captures, gap: char, sep: char, tail: string)
    requires WellFormed(c)
    requires IsWhitespace(gap) && IsWhitespace(sep) && All(tail, NotWhitespace)
    ensures Fields(FieldsText(c, gap, sep, tail)) == Some(c)
  {
    var x := MessageText(c.message, gap, sep, tail);
    var v := c.startcol + EndText(c.endcol, x);
    StartsWithConcat(":", c.line + (":" + v));
    SingleColon(v);
    CutConcat(c.line, ':', v, IsDigit);
    ColumnsOfText(c.startcol, c.endcol, x);
    MessageOfText(c.message, gap, sep, tail);
  }

  /** Soundness from the path's colon on: a match is the text of its captures. */
  lemma FieldsSound(t: string)
    requires Fields(t).Some?
    ensures exists gap, sep, tail ::
      IsWhitespace(gap) && IsWhitespace(sep) && All(tail, NotWhitespace) && t == FieldsText(Fields(t).value, gap, sep, tail)
  {
    var c := Fields(t).value;
    StartsWithSplit(t, ":");
    var (line, v) := Cut(t[1..], IsDigit, ':').value;
    var (startcol, endcol, x) := Columns(v).value;
    ColumnsSound(v);
    MessageSound(x);
    var gap, sep, tail :| IsWhitespace(gap) && IsWhitespace(sep) && All(tail, NotWhitespace)
      && x == MessageText(c.message, gap, sep, tail);
    SingleColon(v);
    assert t == FieldsText(c, gap, sep, tail);
  }

  /** Colons in the fields: the one after the path, the one after the line, and the one before the message. */
  lemma FieldsColons(t: string)
    requires Fields(t).Some?
    ensures Count(t, ':') >= 3
  {
    FieldsSound(t);
    var c := Fields(t).value;
    var gap, sep, tail :| IsWhitespace(gap) && IsWhitespace(sep) && All(tail, NotWhitespace)
      && t == FieldsText(c, gap, sep, tail);
    var rest := MessageText(c.message, gap, sep, tail);
    var e := EndText(c.endcol, rest);
    if c.endcol.Some? {
      CountAppend("-", c.endcol.value + (":" + rest), ':');
      CountAppend(c.endcol.value, ":" + rest, ':');
      CountAppend(":", rest, ':');
    } else {
      CountAppend(":", rest, ':');
    }
    assert Count(e, ':') >= 1;
    CountAppend(c.startcol, e, ':');
    CountAppend(":", c.startcol + e, ':');
    CountAppend(c.line, ":" + (c.startcol + e), ':');
    CountAppend(":", c.line + (":" + (c.startcol + e)), ':');
  }

  /** The fields of colon-free captures hold exactly three colons. */
  lemma FieldsTextColons(c: Captures, gap: char, sep: char, tail: string)
    requires WellFormed(c) && All(c.message, NotColon) && All(tail, NotColon)
    requires gap != ':' && sep != ':'
    ensures Count(FieldsText(c, gap, sep, tail), ':') == 3
  {
    var rest := MessageText(c.message, gap, sep, tail);
    CountNone(c.message, ':', NotColon);
    CountNone(tail, ':', NotColon);
    CountNone(c.line, ':', IsDigit);
    CountNone(c.startcol, ':', IsDigit);
    CountAppend([sep], tail, ':');
    CountAppend(c.message, [sep] + tail, ':');
    CountAppend([gap], c.message + ([sep] + tail), ':');
    assert Count(rest, ':') == 0;
    var e := EndText(c.endcol, rest);
    if c.endcol.Some? {
      CountNone(c.endcol.value, ':', IsDigit);
      CountAppend(":", rest, ':');
      CountAppend(c.endcol.value, ":" + rest, ':');
      CountAppend("-", c.endcol.value + (":" + rest), ':');
    } else {
      CountAppend(":", rest, ':');
    }
    assert Count(e, ':') == 1;
    CountAppend(c.startcol, e, ':');
    CountAppend(":", c.startcol + e, ':');
    CountAppend(c.line, ":" + (c.startcol + e), ':');
    CountAppend(":", c.line + (":" + (c.startcol + e)), ':');
  }

  /** The whole text of a finding: the path, the fields, the message and a trailing word. */
  function Render(path: string, c: Captures, tail: string): string {
    path + FieldsText(c, ' ', ' ', tail)
  }

  /** No suffix of fields with three colons, after their first colon, matches again. */
  lemma NoLaterFields(f: string, j: nat)
    requires |f| > 0 && f[0] == ':' && Count(f, ':') == 3 && 0 < j < |f|
    ensures !FieldsMatch(f[j..])
  {
    assert f[1..][j - 1..] == f[j..];
    CountSuffix(f[1..], j - 1, ':');
    assert f == [f[0]] + f[1..];
    CountAppend([f[0]], f[1..], ':');
    if FieldsMatch(f[j..]) {
      FieldsColons(f[j..]);
    }
  }

  /** Fields that match and hold exactly three colons are matched after any path. */
  lemma MatchAfter(path: string, f: string)
    requires |path| > 0 && |f| > 0 && f[0] == ':' && Count(f, ':') == 3 && FieldsMatch(f)
    ensures Match(path + f) == Fields(f)
  {
    var s := path + f;
    assert s[|path|..] == f;
    forall q | |path| < q < |s|
      ensures !FieldsMatch(s[q..])
    {
      assert s[q..] == f[q - |path|..];
      NoLaterFields(f, q - |path|);
    }
  }

  /**
   Round trip: a finding whose message and trailing word hold no colon is
   matched back to its captures, whatever colons the path holds.
   */
  lemma MatchRender(path: string, c: Captures, tail: string)
    requires |path| > 0 && WellFormed(c)
    requires All(c.message, NotColon) && All(tail, NotColon) && All(tail, NotWhitespace)
    ensures Match(Render(path, c, tail)) == Some(c)
  {
    var f := FieldsText(c, ' ', ' ', tail);
    FieldsRender(c, ' ', ' ', tail);
    FieldsTextColons(c, ' ', ' ', tail);
    MatchAfter(path, f);
  }

  // ---------------------------------------------------------------------------
  // From lines to diagnostics
  // ---------------------------------------------------------------------------

  /**
   One line: a line the pattern does not match, an empty or oversized number,
   or an unparsable end column gives `None`; otherwise an error diagnostic
   from the 0-based start to the 0-based end column (the start column when
   no end is printed).
   */
  function LineDiagnostic(line: string): (r: Option<Diagnostic>)
    ensures Match(line).None? ==> r.None?
    ensures r.Some? ==> r.value.severity == Some(Error) && r.value.source == Some("verible")
    ensures r.Some? ==> r.value.message == Match(line).value.message
    ensures r.Some? ==> r.value.range.start.line == r.value.range.end.line
    ensures Match(line).Some? ==>
      (r.Some? <==> var c := Match(line).value;
        IsU32Text(c.line) && IsU32Text(c.startcol) && (c.endcol.Some? ==> IsU32Text(c.endcol.value)))
    ensures r.Some? ==>
      var c := Match(line).value;
      var row := WrappingDec(ParseU32(c.line).value);
      r.value.range == Range(
        Position(row, WrappingDec(ParseU32(c.startcol).value)),
        Position(row, WrappingDec(ParseU32(c.endcol.GetOr(c.startcol)).value)))
  {
    match Match(line)
    case None => None
    case Some(c) =>
      var row := ParseU32(c.line);
      var startcol := ParseU32(c.startcol);
      var endcol := if c.endcol.Some? then Some(ParseU32(c.endcol.value)) else None;
      if row.None? || startcol.None? then None
      else if endcol.Some? && endcol.value.None? then None
      else
        var end := if endcol.Some? then endcol.value.value else startcol.value;
        var first := WrappingDec(row.value);
        Some(Diagnostic(
          Range(Position(first, WrappingDec(startcol.value)), Position(first, WrappingDec(end))),
          Some(Error), Some("verible"), c.message))
  }

  /**
   Any line that matches with decimal numbers, whatever colons its message
   holds, becomes an error diagnostic spanning the 0-based columns.
   */
  lemma LineOfDecimals(l: string, line: U32, startcol: U32, endcol: Option<U32>, message: string)
    requires Match(l) == Some(Captures(Decimal(line), Decimal(startcol), OptionalDecimal(endcol), message))
    ensures var first := WrappingDec(line);
      LineDiagnostic(l) == Some(Diagnostic(
        Range(Position(first, WrappingDec(startcol)), Position(first, WrappingDec(endcol.GetOr(startcol)))),
        Some(Error), Some("verible"), message))
  {
    ParseDecimal(line);
    ParseDecimal(startcol);
    if endcol.Some? {
      ParseDecimal(endcol.value);
    }
  }

  /**
   A finding printed with decimal numbers and a colon-free message and
   trailing word becomes an error diagnostic spanning the 0-based columns.
   */
  lemma LineRendered(path: string, line: U32, startcol: U32, endcol: Option<U32>, message: string, tail: string)
    requires |path| > 0
    requires All(message, NotColon) && All(tail, NotColon) && All(tail, NotWhitespace)
    ensures var c := Captures(Decimal(line), Decimal(startcol), OptionalDecimal(endcol), message);
      var first := WrappingDec(line);
      LineDiagnostic(Render(path, c, tail)) == Some(Diagnostic(
        Range(Position(first, WrappingDec(startcol)), Position(first, WrappingDec(endcol.GetOr(startcol)))),
        Some(Error), Some("verible"), message))
  {
    var c := Captures(Decimal(line), Decimal(startcol), OptionalDecimal(endcol), message);
    MatchRender(path, c, tail);
    LineOfDecimals(Render(path, c, tail), line, startcol, endcol, message);
  }

  /** A line with an empty line number matches but cannot be parsed. */
  lemma EmptyLineNumberFails(path: string, c: Captures, tail: string)
    requires |path| > 0 && WellFormed(c) && c.line == []
    requires All(c.message, NotColon) && All(tail, NotColon) && All(tail, NotWhitespace)
    ensures LineDiagnostic(Render(path, c, tail)).None?
  {
    MatchRender(path, c, tail);
  }

  /** A line whose start column is empty matches but cannot be parsed. */
  lemma EmptyStartColumnFails(path: string, c: Captures, tail: string)
    requires |path| > 0 && WellFormed(c) && c.startcol == []
    requires All(c.message, NotColon) && All(tail, NotColon) && All(tail, NotWhitespace)
    ensures LineDiagnostic(Render(path, c, tail)).None?
  {
    MatchRender(path, c, tail);
  }

  /** A line whose end column is empty, as in `p:1:2-: m`, matches but cannot be parsed. */
  lemma EmptyEndColumnFails(path: string, c: Captures, tail: string)
    requires |path| > 0 && WellFormed(c) && c.endcol == Some([])
    requires All(c.message, NotColon) && All(tail, NotColon) && All(tail, NotWhitespace)
    ensures LineDiagnostic(Render(path, c, tail)).None?
  {
    MatchRender(path, c, tail);
  }

  /** A line number beyond the u32 range matches but cannot be parsed. */
  lemma OversizedLineFails(path: string, n: nat, c: Captures, tail: string)
    requires n > MaxU32 && c.line == Decimal(n)
    requires |path| > 0 && WellFormed(c)
    requires All(c.message, NotColon) && All(tail, NotColon) && All(tail, NotWhitespace)
    ensures LineDiagnostic(Render(path, c, tail)).None?
  {
    MatchRender(path, c, tail);
    ParseOversized(n);
  }

  /** The diagnostics of every line in order, or `None` when any line gives none. */
  function Collect(lines: seq<string>): (r: Option<seq<Diagnostic>>)
    ensures r.None? <==> exists k :: 0 <= k < |lines| && LineDiagnostic(lines[k]).None?
    ensures r.Some? ==> |r.value| == |lines|
    ensures r.Some? ==> forall k :: 0 <= k < |lines| ==> Some(r.value[k]) == LineDiagnostic(lines[k])
  {
    AllValues(Map(LineDiagnostic, lines))
  }

  /** A line the pattern does not match, such as an empty one, discards every finding of the run. */
  lemma UnmatchedLineDiscardsAll(lines: seq<string>, k: nat)
    requires k < |lines| && Match(lines[k]).None?
    ensures Collect(lines) == None
  {
  }

  /** An empty line never matches. */
  lemma EmptyLineUnmatched()
    ensures Match("").None?
  {
  }

  // ---------------------------------------------------------------------------
  // The run
  // ---------------------------------------------------------------------------

  /** The command line: the configured arguments as given, then the file's path; the run happens in the project directory. */
  function LintCommand(filePath: Path, program: string, args: seq<string>, projectPath: Path): (cmd: Command)
    ensures cmd.program == program && cmd.cwd == projectPath
    ensures |cmd.args| == |args| + 1
    ensures cmd.args[..|args|] == args && cmd.args[|args|] == ToStr(filePath)
  {
    Command(program, args + [ToStr(filePath)], projectPath)
  }

  /**
   The output half of the linter run: a successful exit, a failed run and an
   error stream that is not UTF-8 all give `None`; otherwise every line of
   the error stream must be a finding.
   */
  function Lint(outcome: Outcome): (r: Option<seq<Diagnostic>>)
    ensures outcome.Failed? ==> r.None?
    ensures outcome.Exited? && outcome.success ==> r.None?
    ensures outcome.Exited? && outcome.stderr.None? ==> r.None?
    ensures outcome.Exited? && !outcome.success && outcome.stderr.Some? ==>
      r == Collect(Lines(outcome.stderr.value))
  {
    match outcome
    case Failed => None
    case Exited(success, stderr) =>
      if success then None
      else
        match stderr
        case None => None
        case Some(text) => Collect(Lines(text))
  }
}

=== FILE: verilator.dfy ===
/**
 Verilator as a checker: its command line, and the translation of its error
 stream into diagnostics. Verilator reports one finding per line, shaped
   %Severity[-CODE]: path:line[:col]: message
 and may report findings in files the checked file includes.
 */
module Verilator {
  import opened Wrappers
  import opened Seqs
  import opened Text
  import opened Numbers
  import opened Paths
  import opened Lsp
  import opened Process

  // ---------------------------------------------------------------------------
  // Severity
  // ---------------------------------------------------------------------------

  /** The severity of a captured tag: "Error" exactly, anything starting with "Warning", or else information. */
  function SeverityOf(tag: string): (r: Option<Severity>)
    ensures r.Some?
    ensures r == Some(Error) <==> tag == "Error"
    ensures r == Some(Warning) <==> StartsWith(tag, "Warning")
    ensures r == Some(Information) <==> tag != "Error" && !StartsWith(tag, "Warning")
  {
    if tag == "Error" then Some(Error)
    else if StartsWith(tag, "Warning") then Some(Warning)
    else Some(Information)
  }

  // ---------------------------------------------------------------------------
  // The line pattern
  //   %(?P<severity>Error|Warning)(-(?P<warning_type>[A-Z0-9_]+))?: (?P<filepath>[^:]+):(?P<line>\d+):((?P<col>\d+):)? ?(?P<message>.*)
  // The optional column group and the optional space are alternatives the
  // message's `.*` could also absorb; leftmost-first priority takes each of
  // them whenever it is present, as `Column` and `DropSpace` do. The pattern
  // is not anchored, so the first start where it matches wins.
  // ---------------------------------------------------------------------------

  /** The groups one match captures. */
  datatype Captures = Captures(
    severity: string,
    warningType: Option<string>,
    filepath: string,
    line: string,
    col: Option<string>,
    message: string)

  predicate IsCodeChar(c: char) {
    ('A' <= c <= 'Z') || IsDigit(c) || c == '_'
  }

  /** Captures a match can produce. */
  predicate WellFormed(c: Captures) {
    && (c.severity == "Error" || c.severity == "Warning")
    && (c.warningType.Some? ==> |c.warningType.value| > 0 && All(c.warningType.value, IsCodeChar))
    && |c.filepath| > 0 && All(c.filepath, NotColon)
    && |c.line| > 0 && All(c.line, IsDigit)
    && (c.col.Some? ==> |c.col.value| > 0 && All(c.col.value, IsDigit))
  }

  /** The message, after one space when `spaced`. */
  function MessageText(c: Captures, spaced: bool): string {
    if spaced then " " + c.message else c.message
  }

  /** The text of a match from the optional column on: `col:`, then the message. */
  function ColumnText(c: Captures, spaced: bool): string {
    if c.col.Some? then c.col.value + (":" + MessageText(c, spaced)) else MessageText(c, spaced)
  }

  /** The text of a match from the path on: `path:line:`, then the column text. */
  function LocationText(c: Captures, spaced: bool): string {
    c.filepath + (":" + (c.line + (":" + ColumnText(c, spaced))))
  }

  /** The text of a match from the optional code on: `-CODE: ` or `: `, then the location text. */
  function CodeText(c: Captures, spaced: bool): string {
    if c.warningType.Some? then "-" + (c.warningType.value + (": " + LocationText(c, spaced)))
    else ": " + LocationText(c, spaced)
  }

  /** The whole text of a match. */
  function MatchText(c: Captures, spaced: bool): string {
    "%" + (c.severity + CodeText(c, spaced))
  }

  /** The canonical line for some captures, with one space before the message. */
  function Render(c: Captures): string {
    MatchText(c, true)
  }

  /** `((?P<col>\d+):)?`: a column when digits and a colon lead, and the rest. */
  function Column(v: string): (r: (Option<string>, string))
    ensures r.0.Some? ==> |r.0.value| > 0 && All(r.0.value, IsDigit)
    ensures v == (if r.0.Some? then r.0.value + (":" + r.1) else r.1)
  {
    match Cut(v, IsDigit, ':')
    case Some((digits, w)) => if digits != [] then (Some(digits), w) else (None, v)
    case None => (None, v)
  }

  /** ` ?(?P<message>.*)`: the rest, without one leading space. */
  function DropSpace(w: string): (m: string)
    ensures w == m || w == " " + m
  {
    if StartsWith(w, " ") then
      assert w == " " + w[1..];
      w[1..]
    else w
  }

  /** The part after the warning code: `path:line:(col:)? ?message`. */
  function MatchLocation(severity: string, code: Option<string>, t: string): (r: Option<Captures>)
    ensures r.Some? ==> r.value.severity == severity && r.value.warningType == code
    ensures r.Some? ==> |r.value.filepath| > 0 && All(r.value.filepath, NotColon)
    ensures r.Some? ==> |r.value.line| > 0 && All(r.value.line, IsDigit)
    ensures r.Some? ==> (r.value.col.Some? ==> |r.value.col.value| > 0 && All(r.value.col.value, IsDigit))
  {
    match Cut(t, NotColon, ':')
    case None => None
    case Some((filepath, u)) =>
      if filepath == [] then None
      else
        match Cut(u, IsDigit, ':')
        case None => None
        case Some((line, v)) =>
          if line == [] then None
          else
            var (col, w) := Column(v);
            Some(Captures(severity, code, filepath, line, col, DropSpace(w)))
  }

  /** The part after the severity tag: `(-CODE)?: `, then the location. */
  function MatchCode(severity: string, b: string): (r: Option<Captures>)
    ensures r.Some? ==> r.value.severity == severity
    ensures r.Some? ==> (r.value.warningType.Some? ==> |r.value.warningType.value| > 0 && All(r.value.warningType.value, IsCodeChar))
    ensures r.Some? ==> |r.value.filepath| > 0 && All(r.value.filepath, NotColon)
    ensures r.Some? ==> |r.value.line| > 0 && All(r.value.line, IsDigit)
    ensures r.Some? ==> (r.value.col.Some? ==> |r.value.col.value| > 0 && All(r.value.col.value, IsDigit))
  {
    if StartsWith(b, "-") then
      match Cut(b[1..], IsCodeChar, ':')
      case None => None
      case Some((code, rest)) =>
        if code != [] && StartsWith(rest, " ") then
          MatchLocation(severity, Some(code), rest[1..])
        else None
    else if StartsWith(b, ": ") then
      MatchLocation(severity, None, b[2..])
    else None
  }

  /** The pattern, anchored at the first character of `s`. */
  function MatchAt(s: string): (r: Option<Captures>)
    ensures r.Some? ==> WellFormed(r.value)
  {
    if !StartsWith(s, "%") then None
    else
      var a := s[1..];
      if StartsWith(a, "Error") then MatchCode("Error", a[5..])
      else if StartsWith(a, "Warning") then MatchCode("Warning", a[7..])
      else None
  }

  /** The leftmost start at which the pattern matches, if any. */
  function FindStart(s: string): (r: Option<nat>)
    ensures r.Some? ==> r.value < |s| && MatchAt(s[r.value..]).Some?
    ensures r.Some? ==> forall j :: 0 <= j < r.value ==> MatchAt(s[j..]).None?
    ensures r.None? ==> forall j :: 0 <= j < |s| ==> MatchAt(s[j..]).None?
    decreases |s|
  {
    if s == [] then None
    else if MatchAt(s).Some? then
      assert s[0..] == s;
      Some(0)
    else
      var r := FindStart(s[1..]);
      assert forall j :: 1 <= j <= |s| ==> s[1..][j - 1..] == s[j..];
      assert MatchAt(s[0..]).None? by { assert s[0..] == s; }
      if r.Some? then Some(r.value + 1) else None
  }

  /** `Regex::captures`: the captures of the match at the leftmost start where the pattern matches. */
  function Find(s: string): (r: Option<Captures>)
    ensures r.Some? <==> FindStart(s).Some?
    ensures r.Some? ==> r == MatchAt(s[FindStart(s).value..])
  {
    match FindStart(s)
    case None => None
    case Some(i) => MatchAt(s[i..])
  }

  /** The optional column group reads back the column it was rendered with. */
  lemma ColumnRender(c: Captures)
    requires c.col.Some? ==> |c.col.value| > 0 && All(c.col.value, IsDigit)
    ensures Column(ColumnText(c, true)) == (c.col, " " + c.message)
  {
    if c.col.Some? {
      assert ":" + (" " + c.message) == [':'] + (" " + c.message);
      CutConcat(c.col.value, ':', " " + c.message, IsDigit);
    } else {
      assert Span(" " + c.message, IsDigit) == 0;
    }
  }

  lemma MatchLocationRender(c: Captures)
    requires WellFormed(c)
    ensures MatchLocation(c.severity, c.warningType, LocationText(c, true)) == Some(c)
  {
    var v := ColumnText(c, true);
    assert ":" + (c.line + (":" + v)) == [':'] + (c.line + (":" + v));
    assert ":" + v == [':'] + v;
    CutConcat(c.filepath, ':', c.line + (":" + v), NotColon);
    CutConcat(c.line, ':', v, IsDigit);
    ColumnRender(c);
    assert StartsWith(" " + c.message, " ") && (" " + c.message)[1..] == c.message;
  }

  lemma MatchCodePlain(severity: string, t: string)
    ensures MatchCode(severity, ": " + t) == MatchLocation(severity, None, t)
  {
    NotStartsWith(": " + t, "-");
    StartsWithConcat(": ", t);
  }

  lemma ColonSpace(t: string)
    ensures ": " + t == [':'] + (" " + t)
  {
  }

  lemma MatchCodeTagged(severity: string, code: string, t: string)
    requires |code| > 0 && All(code, IsCodeChar)
    ensures MatchCode(severity, "-" + (code + (": " + t))) == MatchLocation(severity, Some(code), t)
  {
    StartsWithConcat("-", code + (": " + t));
    ColonSpace(t);
    CutConcat(code, ':', " " + t, IsCodeChar);
    StartsWithConcat(" ", t);
  }

  lemma MatchCodeRender(c: Captures)
    requires WellFormed(c)
    ensures MatchCode(c.severity, CodeText(c, true)) == Some(c)
  {
    MatchLocationRender(c);
    if c.warningType.Some? {
      MatchCodeTagged(c.severity, c.warningType.value, LocationText(c, true));
    } else {
      MatchCodePlain(c.severity, LocationText(c, true));
    }
  }

  lemma MatchAtError(b: string)
    ensures MatchAt("%" + ("Error" + b)) == MatchCode("Error", b)
  {
    StartsWithConcat("%", "Error" + b);
    StartsWithConcat("Error", b);
  }

  lemma MatchAtWarning(b: string)
    ensures MatchAt("%" + ("Warning" + b)) == MatchCode("Warning", b)
  {
    StartsWithConcat("%", "Warning" + b);
    StartsWithConcat("Warning", b);
    NotStartsWith("Warning" + b, "Error");
  }

  /** Round trip: the canonical line of any captures the pattern can produce is matched back to them. */
  lemma MatchRender(c: Captures)
    requires WellFormed(c)
    ensures MatchAt(Render(c)) == Some(c)
  {
    MatchCodeRender(c);
    if c.severity == "Error" {
      MatchAtError(CodeText(c, true));
    } else {
      MatchAtWarning(CodeText(c, true));
    }
  }

  /** The search finds the canonical line's match at its start. */
  lemma FindRender(c: Captures)
    requires WellFormed(c)
    ensures Find(Render(c)) == Some(c)
  {
    MatchRender(c);
    assert Render(c)[0..] == Render(c);
  }

  lemma MatchLocationSound(severity: string, code: Option<string>, t: string)
    requires MatchLocation(severity, code, t).Some?
    ensures var c := MatchLocation(severity, code, t).value;
      t == LocationText(c, true) || t == LocationText(c, false)
  {
  }

  lemma MatchCodeSound(severity: string, b: string)
    requires MatchCode(severity, b).Some?
    ensures var c := MatchCode(severity, b).value;
      b == CodeText(c, true) || b == CodeText(c, false)
  {
    if StartsWith(b, "-") {
      var (code, rest) := Cut(b[1..], IsCodeChar, ':').value;
      var t := rest[1..];
      StartsWithSplit(b, "-");
      StartsWithSplit(rest, " ");
      ColonSpace(t);
      assert b == "-" + (code + (": " + t));
      assert MatchCode(severity, b) == MatchLocation(severity, Some(code), t);
      MatchLocationSound(severity, Some(code), t);
    } else {
      var t := b[2..];
      StartsWithSplit(b, ": ");
      assert MatchCode(severity, b) == MatchLocation(severity, None, t);
      MatchLocationSound(severity, None, t);
    }
  }

  /** Soundness: a match is the whole text of its captures, with or without the space before the message. */
  lemma MatchAtSound(s: string)
    requires MatchAt(s).Some?
    ensures MatchText(MatchAt(s).value, true) == s || MatchText(MatchAt(s).value, false) == s
  {
    var a := s[1..];
    StartsWithSplit(s, "%");
    if StartsWith(a, "Error") {
      MatchCodeSound("Error", a[5..]);
      StartsWithSplit(a, "Error");
    } else {
      MatchCodeSound("Warning", a[7..]);
      StartsWithSplit(a, "Warning");
    }
  }

  // ---------------------------------------------------------------------------
  // From a line to a diagnostic
  // ---------------------------------------------------------------------------

  /** What one line of the error stream contributes. */
  datatype Verdict = Skip | Keep(diagnostic: Diagnostic) | Abort

  /**
   The message text: an error keeps the captured message; a warning is
   prefixed with its code, and a warning without a code aborts the run.
   */
  function MessageOf(severity: Option<Severity>, c: Captures): (r: Option<string>)
    ensures severity == Some(Error) ==> r == Some(c.message)
    ensures severity == Some(Warning) ==> (r.Some? <==> c.warningType.Some?)
    ensures severity == Some(Warning) && c.warningType.Some? ==> r == Some(c.warningType.value + ": " + c.message)
  {
    match severity
    case Some(Error) => Some(c.message)
    case Some(Warning) => if c.warningType.Some? then Some(c.warningType.value + ": " + c.message) else None
    case _ => Some("")
  }

  /**
   One line: lines not starting with '%', lines the pattern does not match,
   and findings in other files are skipped; an unparsable number or a warning
   without a code aborts; anything else becomes a zero-width diagnostic.
   */
  function ClassifyLine(filePath: string, line: string): (v: Verdict)
    ensures !StartsWith(line, "%") ==> v.Skip?
    ensures Find(line).None? ==> v.Skip?
    ensures Find(line).Some? && Find(line).value.filepath != filePath ==> v.Skip?
    ensures v.Keep? ==> v.diagnostic.range.start == v.diagnostic.range.end
    ensures v.Keep? ==> v.diagnostic.source == Some("verilator")
    ensures v.Keep? ==> v.diagnostic.severity == Some(Error) || v.diagnostic.severity == Some(Warning)
    ensures StartsWith(line, "%") && Find(line).Some? && Find(line).value.filepath == filePath ==>
      (v.Abort? <==> var c := Find(line).value;
        || !IsU32Text(c.line)
        || (c.col.Some? && !IsU32Text(c.col.value))
        || (c.severity == "Warning" && c.warningType.None?))
  {
    if !StartsWith(line, "%") then Skip
    else
      match Find(line)
      case None => Skip
      case Some(c) =>
        if c.filepath != filePath then Skip
        else
          var severity := SeverityOf(c.severity);
          assert c.severity == "Warning" ==> severity == Some(Warning) by {
            StartsWithConcat("Warning", []);
          }
          var row := ParseU32(c.line);
          var column := ParseU32(c.col.GetOr("1"));
          assert c.col.None? ==> column.Some? by {
            ParseDecimal(1);
            assert Decimal(1) == "1";
          }
          if row.None? || column.None? then Abort
          else
            match MessageOf(severity, c)
            case None => Abort
            case Some(message) =>
              var pos := Position(WrappingDec(row.value), WrappingDec(column.value));
              Keep(Diagnostic(Range(pos, pos), severity, Some("verilator"), message))
  }

  /**
   A finding in the checked file, printed with decimal line and column:
   a warning without a code aborts, anything else becomes one zero-width
   diagnostic at the 0-based position (column 1 when none is printed), whose
   message is the text for an error and `CODE: text` for a warning.
   */
  lemma ClassifyRendered(filePath: string, severity: string, code: Option<string>, line: U32, col: Option<U32>, message: string)
    requires WellFormed(Captures(severity, code, filePath, Decimal(line), OptionalDecimal(col), message))
    ensures var v := ClassifyLine(filePath, Render(Captures(severity, code, filePath, Decimal(line), OptionalDecimal(col), message)));
      var pos := Position(WrappingDec(line), WrappingDec(col.GetOr(1)));
      && (severity == "Warning" && code.None? ==> v == Abort)
      && (severity == "Error" ==> v == Keep(Diagnostic(Range(pos, pos), Some(Error), Some("verilator"), message)))
      && (severity == "Warning" && code.Some? ==>
            v == Keep(Diagnostic(Range(pos, pos), Some(Warning), Some("verilator"), code.value + ": " + message)))
  {
    var c := Captures(severity, code, filePath, Decimal(line), OptionalDecimal(col), message);
    RenderedNumbers(c, line, col);
    ClassifyFound(filePath, Render(c), c, line, col.GetOr(1));
    if severity == "Warning" {
      StartsWithConcat("Warning", []);
    }
  }

  /** A found finding in the checked file whose numbers parse: its message decides between a diagnostic and an abort. */
  lemma ClassifyFound(filePath: string, line: string, c: Captures, row: U32, column: U32)
    requires StartsWith(line, "%") && Find(line) == Some(c) && c.filepath == filePath
    requires ParseU32(c.line) == Some(row) && ParseU32(c.col.GetOr("1")) == Some(column)
    ensures var pos := Position(WrappingDec(row), WrappingDec(column));
      ClassifyLine(filePath, line) ==
        match MessageOf(SeverityOf(c.severity), c)
        case None => Abort
        case Some(m) => Keep(Diagnostic(Range(pos, pos), SeverityOf(c.severity), Some("verilator"), m))
  {
  }

  /** The numbers of a rendered finding in the checked file are read back. */
  lemma RenderedNumbers(c: Captures, line: U32, col: Option<U32>)
    requires WellFormed(c) && c.line == Decimal(line) && c.col == OptionalDecimal(col)
    ensures StartsWith(Render(c), "%") && Find(Render(c)) == Some(c)
    ensures ParseU32(c.line) == Some(line) && ParseU32(c.col.GetOr("1")) == Some(col.GetOr(1))
  {
    FindRender(c);
    StartsWithConcat("%", c.severity + CodeText(c, true));
    ParseDecimal(line);
    if col.Some? {
      ParseDecimal(col.value);
    } else {
      ParseDecimal(1);
      assert Decimal(1) == "1";
    }
  }

  /** A finding in the checked file whose line number is beyond the u32 range aborts the run. */
  lemma OversizedLineAborts(filePath: string, n: nat, c: Captures)
    requires WellFormed(c) && c.filepath == filePath
    requires n > MaxU32 && c.line == Decimal(n)
    ensures ClassifyLine(filePath, Render(c)) == Abort
  {
    FindRender(c);
    StartsWithConcat("%", c.severity + CodeText(c, true));
    ParseOversized(n);
  }

  /** A finding in another file, such as one the checked file includes, is skipped. */
  lemma OtherFileSkipped(filePath: string, c: Captures)
    requires WellFormed(c) && c.filepath != filePath
    ensures ClassifyLine(filePath, Render(c)) == Skip
  {
    FindRender(c);
    StartsWithConcat("%", c.severity + CodeText(c, true));
  }

  /** The diagnostics of the kept verdicts, in order. */
  function Kept(vs: seq<Verdict>): seq<Diagnostic> {
    if vs == [] then []
    else (if vs[0].Keep? then [vs[0].diagnostic] else []) + Kept(vs[1..])
  }

  lemma {:induction false} KeptAppend(a: seq<Verdict>, b: seq<Verdict>)
    ensures Kept(a + b) == Kept(a) + Kept(b)
    decreases |a|
  {
    if a == [] {
      assert a + b == b;
    } else {
      assert (a + b)[0] == a[0];
      assert (a + b)[1..] == a[1..] + b;
      KeptAppend(a[1..], b);
    }
  }

  predicate HasAbort(vs: seq<Verdict>) {
    exists k :: 0 <= k < |vs| && vs[k].Abort?
  }

  /**
   The loop over the verdicts: a kept diagnostic is pushed, a skipped line
   is passed over, and the first abort ends the run with nothing.
   */
  function Gather(vs: seq<Verdict>): (r: Option<seq<Diagnostic>>)
    ensures r.None? <==> HasAbort(vs)
    ensures r.Some? ==> r.value == Kept(vs)
    decreases |vs|
  {
    if vs == [] then Some([])
    else
      var rest := Gather(vs[1..]);
      assert forall k :: 1 <= k < |vs| ==> vs[1..][k - 1] == vs[k];
      match vs[0]
      case Abort => None
      case Skip => rest
      case Keep(d) => if rest.None? then None else Some([d] + rest.value)
  }

  /** The verdict of every line, in order. */
  function Classify(filePath: string, lines: seq<string>): (vs: seq<Verdict>)
    ensures |vs| == |lines|
    ensures forall k :: 0 <= k < |lines| ==> vs[k] == ClassifyLine(filePath, lines[k])
  {
    Map(line => ClassifyLine(filePath, line), lines)
  }

  /** The diagnostics of all lines in order, or `None` when some line aborts. */
  function Collect(filePath: string, lines: seq<string>): (r: Option<seq<Diagnostic>>)
    ensures r.None? <==> exists k :: 0 <= k < |lines| && ClassifyLine(filePath, lines[k]).Abort?
    ensures r.Some? ==> |r.value| <= |lines|
    ensures r.Some? ==> forall i :: 0 <= i < |r.value| ==> r.value[i].source == Some("verilator")
  {
    var vs := Classify(filePath, lines);
    KeptFromKeep(vs);
    Gather(vs)
  }

  /** Kept diagnostics are no more than the verdicts, and each comes from a `Keep`. */
  lemma {:induction false} KeptFromKeep(vs: seq<Verdict>)
    ensures |Kept(vs)| <= |vs|
    ensures forall i :: 0 <= i < |Kept(vs)| ==> exists k :: 0 <= k < |vs| && vs[k] == Keep(Kept(vs)[i])
    decreases |vs|
  {
    if vs != [] {
      KeptFromKeep(vs[1..]);
      var head := if vs[0].Keep? then [vs[0].diagnostic] else [];
      forall i | 0 <= i < |Kept(vs)|
        ensures exists k :: 0 <= k < |vs| && vs[k] == Keep(Kept(vs)[i])
      {
        if i < |head| {
          assert vs[0] == Keep(Kept(vs)[i]);
        } else {
          var k :| 0 <= k < |vs[1..]| && vs[1..][k] == Keep(Kept(vs[1..])[i - |head|]);
          assert vs[k + 1] == Keep(Kept(vs)[i]);
        }
      }
    }
  }

  lemma ClassifyAppend(filePath: string, a: seq<string>, b: seq<string>)
    ensures Classify(filePath, a + b) == Classify(filePath, a) + Classify(filePath, b)
  {
    MapAppend(line => ClassifyLine(filePath, line), a, b);
  }

  lemma HasAbortAppend(a: seq<Verdict>, b: seq<Verdict>)
    ensures HasAbort(a + b) <==> HasAbort(a) || HasAbort(b)
  {
    if HasAbort(a + b) {
      var k :| 0 <= k < |a + b| && (a + b)[k].Abort?;
      if k < |a| { assert a[k].Abort?; } else { assert b[k - |a|].Abort?; }
    }
    if HasAbort(a) {
      var k :| 0 <= k < |a| && a[k].Abort?;
      assert (a + b)[k].Abort?;
    }
    if HasAbort(b) {
      var k :| 0 <= k < |b| && b[k].Abort?;
      assert (a + b)[|a| + k].Abort?;
    }
  }

  /** Output order: the diagnostics of two runs of lines are those of the first, then those of the second. */
  lemma CollectAppend(filePath: string, a: seq<string>, b: seq<string>)
    ensures Collect(filePath, a + b) ==
      (if Collect(filePath, a).Some? && Collect(filePath, b).Some?
       then Some(Collect(filePath, a).value + Collect(filePath, b).value)
       else None)
  {
    var va, vb := Classify(filePath, a), Classify(filePath, b);
    ClassifyAppend(filePath, a, b);
    HasAbortAppend(va, vb);
    KeptAppend(va, vb);
  }

  lemma GatherSkip(va: seq<Verdict>, vb: seq<Verdict>)
    ensures Gather(va + [Skip] + vb) == Gather(va + vb)
  {
    HasAbortAppend(va + [Skip], vb);
    HasAbortAppend(va, [Skip]);
    HasAbortAppend(va, vb);
    KeptAppend(va + [Skip], vb);
    KeptAppend(va, [Skip]);
    KeptAppend(va, vb);
    assert !HasAbort([Skip]);
    assert [Skip][1..] == [];
    assert Kept([Skip]) == [];
    assert HasAbort(va + [Skip] + vb) == HasAbort(va + vb);
    assert Kept(va + [Skip] + vb) == Kept(va + vb);
  }

  /** A skipped line, such as a finding in an included file, leaves the result as it was. */
  lemma SkippedLineIsIgnored(filePath: string, a: seq<string>, line: string, b: seq<string>)
    requires ClassifyLine(filePath, line).Skip?
    ensures Collect(filePath, a + [line] + b) == Collect(filePath, a + b)
  {
    ClassifyAppend(filePath, a + [line], b);
    ClassifyAppend(filePath, a, [line]);
    ClassifyAppend(filePath, a, b);
    var va, vb := Classify(filePath, a), Classify(filePath, b);
    assert Classify(filePath, [line]) == [Skip];
    assert Classify(filePath, a + [line] + b) == va + [Skip] + vb;
    GatherSkip(va, vb);
    assert Collect(filePath, a + [line] + b) == Gather(va + [Skip] + vb);
    assert Collect(filePath, a + b) == Gather(va + vb);
  }

  // ---------------------------------------------------------------------------
  // The run
  // ---------------------------------------------------------------------------

  /** The configured arguments, each split on whitespace, flattened. */
  function SplitArgs(args: seq<string>): (r: seq<string>)
    ensures forall k :: 0 <= k < |r| ==> IsWord(r[k])
    ensures Concat(r) == RemoveWhitespace(Concat(args))
  {
    if args == [] then []
    else
      var r := SplitWhitespace(args[0]) + SplitArgs(args[1..]);
      SplitWhitespaceKeepsContent(args[0]);
      ConcatAppend(SplitWhitespace(args[0]), SplitArgs(args[1..]));
      RemoveWhitespaceAppend(args[0], Concat(args[1..]));
      r
  }

  /** Arguments that are single words pass through unchanged. */
  lemma {:induction false} SplitArgsOfWords(args: seq<string>)
    requires forall k :: 0 <= k < |args| ==> IsWord(args[k])
    ensures SplitArgs(args) == args
    decreases |args|
  {
    if args != [] {
      SplitWord(args[0]);
      SplitArgsOfWords(args[1..]);
      assert args == [args[0]] + args[1..];
    }
  }

  /** Splitting works argument by argument: the split of two lists is the first's split, then the second's. */
  lemma {:induction false} SplitArgsAppend(a: seq<string>, b: seq<string>)
    ensures SplitArgs(a + b) == SplitArgs(a) + SplitArgs(b)
    decreases |a|
  {
    if a == [] {
      assert a + b == b;
    } else {
      assert (a + b)[0] == a[0];
      assert (a + b)[1..] == a[1..] + b;
      SplitArgsAppend(a[1..], b);
    }
  }

  /** One configured argument holding two words separated by whitespace becomes two arguments. */
  lemma SplitArgsSeparates(w: string, c: char, x: string)
    requires IsWord(w) && IsWhitespace(c) && IsWord(x)
    ensures SplitArgs([w + ([c] + x)]) == [w, x]
  {
    SplitAtWhitespace(w, c, x);
    SplitWord(x);
    assert [w + ([c] + x)][1..] == [];
  }

  lemma {:induction false} ConcatAppend(a: seq<string>, b: seq<string>)
    ensures Concat(a + b) == Concat(a) + Concat(b)
    decreases |a|
  {
    if a == [] {
      assert a + b == b;
    } else {
      assert (a + b)[0] == a[0];
      assert (a + b)[1..] == a[1..] + b;
      ConcatAppend(a[1..], b);
    }
  }

  /**
   The command line: the split arguments, then the file's path; the run
   happens in the directory holding the file.
   */
  function SyntaxCommand(filePath: Path, program: string, args: seq<string>): (cmd: Command)
    requires filePath.components != []
    ensures cmd.program == program
    ensures |cmd.args| > 0 && cmd.args[|cmd.args| - 1] == ToStr(filePath)
    ensures cmd.args[..|cmd.args| - 1] == SplitArgs(args)
    ensures cmd.cwd.Join(filePath.components[|filePath.components| - 1]) == filePath
  {
    Command(program, SplitArgs(args) + [ToStr(filePath)], filePath.Parent().value)
  }

  /**
   The output half of the Verilator run: a successful exit, a failed run and
   an error stream that is not UTF-8 all give `None`; otherwise the lines of
   the error stream are collected against the file's path.
   */
  function Syntax(filePath: Path, outcome: Outcome): (r: Option<seq<Diagnostic>>)
    ensures outcome.Failed? ==> r.None?
    ensures outcome.Exited? && outcome.success ==> r.None?
    ensures outcome.Exited? && outcome.stderr.None? ==> r.None?
    ensures outcome.Exited? && !outcome.success && outcome.stderr.Some? ==>
      r == Collect(ToStr(filePath), Lines(outcome.stderr.value))
  {
    match outcome
    case Failed => None
    case Exited(success, stderr) =>
      if success then None
      else
        match stderr
        case None => None
        case Some(text) => Collect(ToStr(filePath), Lines(text))
  }
}

=== FILE: wrappers.dfy ===
/** Failure-carrying values: Rust's `Option` and `Result`, as the model uses them. */
module Wrappers {

  /** An optional value; `None` is also how an aborted tool run is reported. */
  datatype Option<+T> = None | Some(value: T) {

    /** Rust's `unwrap_or`: the value, or `default` when there is none. */
    function GetOr(default: T): (r: T)
      ensures Some? ==> r == value
      ensures None? ==> r == default
    {
      match this
      case Some(v) => v
      case None => default
    }
  }

  /** A value or an error, as returned by `anyhow::Result`. */
  datatype Result<+T, +E> = Ok(value: T) | Err(error: E)
}

/** Sequence helpers shared by the checkers' output handling. */
module Seqs {
  import opened Wrappers

  /** `iter().map(f).collect()`. */
  function Map<A, B>(f: A -> B, s: seq<A>): (r: seq<B>)
    ensures |r| == |s|
    ensures forall k :: 0 <= k < |s| ==> r[k] == f(s[k])
  {
    seq(|s|, k requires 0 <= k < |s| => f(s[k]))
  }

  /** Every value in order, or `None` when one is missing: what a loop that returns early with `?` collects. */
  function AllValues<T>(xs: seq<Option<T>>): (r: Option<seq<T>>)
    ensures r.None? <==> exists k :: 0 <= k < |xs| && xs[k].None?
    ensures r.Some? ==> |r.value| == |xs| && forall k :: 0 <= k < |xs| ==> xs[k] == Some(r.value[k])
    decreases |xs|
  {
    if xs == [] then Some([])
    else
      var rest := AllValues(xs[1..]);
      assert forall k :: 1 <= k < |xs| ==> xs[1..][k - 1] == xs[k];
      match xs[0]
      case None => None
      case Some(x) => if rest.None? then None else Some([x] + rest.value)
  }

  lemma MapAppend<A, B>(f: A -> B, a: seq<A>, b: seq<A>)
    ensures Map(f, a + b) == Map(f, a) + Map(f, b)
  {
    var l, r := Map(f, a + b), Map(f, a) + Map(f, b);
    forall k | 0 <= k < |l|
      ensures l[k] == r[k]
    {
      if k < |a| {
        assert (a + b)[k] == a[k];
      } else {
        assert (a + b)[k] == b[k - |a|];
      }
    }
  }
}
